=== FILE: README.md ===
# Shell emulator over a virtual filesystem: a Dafny model

The shell emulator reads a declarative document (XML) describing a tree of folders and files. It builds an in-memory tree from it (the VFS) and runs a few UNIX-like commands against that tree. The commands are `ls`, `cd`, `uniq`, `cal`, `uname`, `help`, `vfs-info` and `exit`. This project models the logic of the final draft, `shell4.py`:

- the tree builder `_parse_folder` and the path walker `get_node`;
- the read-only queries `list_directory`, `is_directory` and `read_file`;
- `get_info` and `calculate_sha256`;
- the lexical path normaliser `_normalize_path` and the prompt's `_get_display_path`;
- the commands `ls`, `cd` and `uniq`, the argument checks of `cal`, and `execute_command` with its return codes.

It also models the same loader and the return codes of the earlier draft `shell3.py`. From the first draft, `shell_emulator.py`, it models the quote- and escape-aware tokenizer `parse_input` and the branches of its `execute_command` that do not touch the host, and hands the rest of `cd` to the host.

Modules, one per file:

- `Wrappers` (wrappers.dfy): `Option` and `Result`.
- `Text` (text.dfy): Python's `str.split(sep)` and `sep.join`, their round trips, and code-point string order.
- `Paths` (paths.dfy): `_normalize_path` as a fold over the split segments, canonical paths and the display path.
- `Vfs` (vfs.dfy): the stand-in for the parsed XML element, the `Node` tree and the builder `Build`. Also the walk `Resolve`, and the class `FileSystem`, whose fields `root`, `name` and `rawData` are assigned by `LoadFromXml`. `ParseFolder` and `GetNode` are loops proved against `Build` and `Resolve`.
- `Commands` (commands.dfy): the return codes, the exact messages, the `uniq` filter, the `cal` checks and the sorted listing of `ls`.
- `Shell` (shell.dfy): the class `Shell`, which is `ComLineEm`. It holds the mutable `currentPath` and the methods `NormalizePath`, `Ls`, `Cd`, `Uniq` and `ExecuteCommand`. Each method is proved against a relational specification (`LsSpec`, `CdSpec`, `UniqSpec`, `ExecuteSpec`).
- `Draft` (draft.dfy): the return codes of `shell3.py`'s `execute_command`.
- `Emulator` (emulator.dfy): `parse_input` as a loop proved against a left fold of one-character steps, and its `execute_command`.
- `Scenario` (scenario.dfy): a session on a concrete document, and two same-named siblings.

Conventions:

- A command's printed lines are returned as a sequence of strings.
- The return code is `Status`: `Exit` for `None`, `Failure` for `False` and `Success` for `True`. `Crash` stands for an exception that escapes `execute_command`. That happens on an empty token list (`IndexError`), or when a path continues through a file (`get_node` raises `AttributeError`).
- Collaborators the code calls but does not define are parameters:
  - XML parsing: `parse: string -> Option<Element>`;
  - base64 plus UTF-8 decoding: `decode: string -> Option<string>`;
  - the SHA-256 hex digest: `hash: string -> HexDigest`;
  - `shlex.split`: its outcome `Result<seq<string>, string>` is what `ExecuteCommand` receives;
  - `repr` of a string, used when `shell_emulator.py` prints a list.
- `os.path` is POSIX `posixpath`.

`content.split('\n')` (shell4.py:397) leaves an empty last piece after a final newline, and `uniq` keeps it (shell4.py:401-404). So `"a\na\nb\na\n"` gives `["a","b","a",""]` (`Commands.CollapseExample`).

## Model

| member | source | states |
|---|---|---|
| `Text.Split` | shell4.py:233 | `str.split(sep)`: always at least one piece, and no piece holds the separator |
| `Text.JoinSplit` | shell4.py:242 | joining the split pieces with the same separator gives the string back |
| `Text.SplitJoin` | shell4.py:236-242 | splitting a join of separator-free pieces gives the pieces back |
| `Paths.NonEmpty` | shell4.py:104 | `[p for p in parts if p]`: the result has no empty piece, and a string is in it exactly when it is a non-empty piece of the input |
| `Paths.NonEmptyAppend` | shell4.py:104 | the filter keeps order: filtering a concatenation concatenates the filtered halves |
| `Paths.NormalizeIsCanonical` | shell4.py:220-242 | `_normalize_path` always returns an absolute path with no empty, `.` or `..` segment; an empty stack renders as exactly `/` |
| `Paths.NormalizeStartsFrom` | shell4.py:221-229 | an absolute target ignores the current path; a relative target starts from the current path's segments (at the root, from none) |
| `Paths.NormalizeChild` | shell4.py:220-242 | a plain relative name from a canonical path appends one segment |
| `Paths.NormalizeParent` | shell4.py:232-238 | `..` pops the last segment of the current path, and does nothing at the root |
| `Paths.RootParent` | shell4.py:236-238 | `normalize("/", "..") == "/"` |
| `Paths.NormalizeFixesCanonical` | shell4.py:220-242 | a canonical target comes back unchanged from any current path |
| `Paths.NormalizeIdempotent` | shell4.py:220-242 | normalising an already normalised path again returns it unchanged |
| `Paths.NormalizeDot` | shell4.py:233-235 | `normalize(p, ".") == p` for every canonical `p` |
| `Paths.DisplayOfRender` | shell4.py:213-218 | the prompt shows `~` at the root and `~/` plus the last segment of the path elsewhere |
| `Paths.DisplayOfCanonical` | shell4.py:216-218 | for a canonical current path other than `/`, the prompt shows `~/` and its last segment |
| `Vfs.Slashes` | shell4.py:67 | `replace('\\', '/')`: same length, each backslash becomes `/` and every other character stays |
| `Vfs.FileContent` | shell4.py:73-84 | content defaults to `""`; it is decoded only for `encoding == 'base64'` with non-empty text; a failed decode keeps the raw text (shell3.py:80-88 is the same) |
| `Vfs.BuildKeys` | shell4.py:63-85 | the children of a folder are exactly the names (default `''`) of its `folder` and `file` elements; other tags are ignored |
| `Vfs.BuildLastWins` | shell4.py:69 | a `folder`/`file` element with no later same-named sibling is the child stored under its name: a later sibling overwrites an earlier one (last write wins; shell4.py:85, shell3.py:74, shell3.py:91) |
| `Vfs.BuildWellPlaced` | shell4.py:66-70 | every child is stored under its own name at the join of its parent's path and that name, all the way down, because a folder's recursion starts from its own joined path (shell3.py:72-75) |
| `Vfs.JoinPathRender` | shell4.py:67 | joining a plain name onto a rendered path renders the longer segment list |
| `Vfs.DescendAlong` | shell4.py:100-112 | in a well-placed tree, the node reached along a list of names carries the path built by joining those names one at a time |
| `Vfs.AlongRender` | shell4.py:67 | joining plain names one at a time onto the root gives the rendered path of those names |
| `Vfs.DescendPath` | shell4.py:100-112 | a node reached from the well-placed root by plain names carries the path that renders those names |
| `Vfs.ResolveOwnPath` | shell4.py:100-112 | in a loaded tree, every node reached by plain names has the path of those names, and `get_node` of its path returns that same node |
| `Vfs.FileSystem.constructor` | shell4.py:37-40 | a fresh filesystem has an empty root folder at `/`, an empty name and no raw data |
| `Vfs.FileSystem.LoadFromXml` | shell4.py:42-61 | a read source becomes `raw_data` even when it does not parse; on success the name is the root's `name` attribute or `unnamed_vfs`, and the root is a fresh folder built from the document's children; the result is true iff the source was read and parsed (shell3.py:45-64 is the same) |
| `Vfs.FileSystem.ParseFolder` | shell4.py:63-85 | the loop over child elements builds exactly the children map `Build` defines (shell3.py:67-91 is the same) |
| `Vfs.FileSystem.GetNode` | shell4.py:100-112 | the segment walk returns `Resolve`: the root for `/`; otherwise it follows the non-empty segments and is `Missing` at the first absent name and `ThroughFile` where a segment follows a file |
| `Vfs.FileSystem.ListDirectory` | shell4.py:114-118 | the children's names iff the path names a folder, nothing otherwise, and the fault iff the walk goes through a file |
| `Vfs.FileSystem.IsDirectory` | shell4.py:120-122 | true iff the path names a folder, and the fault iff the walk goes through a file |
| `Vfs.FileSystem.ReadFile` | shell4.py:124-128 | the content iff the path names a file, nothing otherwise, and the fault iff the walk goes through a file |
| `Vfs.FileSystem.Sha256` | shell4.py:87-90 | `"N/A"` exactly when there is no raw data, otherwise the digest of the raw data (shell3.py:93-97) |
| `Vfs.FileSystem.GetInfo` | shell4.py:92-97 | the name; the `sha256` field is `Sha256()`, the digest of the raw document when loaded; `loaded` iff the raw data is non-empty iff the field is not `"N/A"` (shell3.py:99-105) |
| `Commands.Collapse` | shell4.py:397-404 | `uniq`'s filter: no two adjacent output lines are equal, the output is empty only for empty input, and it starts with the first line and ends with the last |
| `Commands.CollapseIsRunHeads` | shell4.py:397-404 | comparing with the last line emitted is comparing with the previous input line: exactly the first line of every run is kept |
| `Commands.RunHeadsSubsequence` | shell4.py:397-404 | the first lines of the runs are a subsequence of the input, in order |
| `Commands.CollapseIsSubsequence` | shell4.py:397-407 | `uniq` prints a subsequence of `content.split('\n')`, in the same order |
| `Commands.SplitTerminated` | shell4.py:397 | text whose every line ends in a newline splits into those lines followed by one empty piece |
| `Commands.CollapseRuns` | shell4.py:401-404 | an adjacent repeat is dropped, a repeat further back is kept, and a final empty line is kept |
| `Commands.CollapseExample` | shell4.py:397 | on `"a\na\nb\na\n"` the output is `["a","b","a",""]`: the second run of `a` is kept, and so is the trailing empty piece |
| `Commands.ParseDecimal` | shell4.py:351 | `int()` reads the decimal rendering of every natural number back |
| `Commands.Cal` | shell4.py:342-374 | no argument: current month; one: a year in 1..9999; two: month 1..12 and year 1..9999; non-numeric arguments give the numbers message, an out-of-range year the year-range message, an out-of-range month or year in the two-argument form the month-and-year message, more than two arguments the arity message and the usage line |
| `Commands.CalRejectsMonth13` | shell4.py:357-365 | `cal 13 2024` is refused with the month/year range message and prints no calendar |
| `Commands.SortedNames` | shell4.py:308-309 | `sorted(items)` of a folder's names: strictly increasing in code-point order and holding exactly the names |
| `Commands.UniqLines` | shell4.py:397-404 | the loop's output equals `Collapse` of the split lines |
| `Commands.ListingUnique` | shell4.py:305-309 | the listing of a set of names is unique: the empty notice for no names, otherwise the one sorted sequence of them |
| `Draft.Dispatch` | shell3.py:188-217 | `None` only for a bare `exit`; `False` exactly for a parse error or an unknown command in script mode; an exception for an empty token list; `True` otherwise, `exit` with arguments included |
| `Shell.CdLandsOnFolder` | shell4.py:313-340 | a failed `cd` leaves the current path unchanged; a successful one moves to `/` with no argument, otherwise to the normalised target, which is canonical and an existing folder |
| `Shell.ExitOnlyWhenBare` | shell4.py:253-257 | `execute_command` returns `None` exactly for `exit` with no arguments |
| `Shell.OnlyCdMoves` | shell4.py:244-277 | the only command that changes the current path is a successful `cd` |
| `Shell.AgreesWithDraft` | shell4.py:244-277 | for parse errors, `exit`, `help`, `vfs-info` and unknown commands, the return code equals shell3.py's (shell3.py:188-217) |
| `Shell.Shell.constructor` | shell4.py:133 | the session starts at `/`, a folder of any tree |
| `Shell.Shell.DisplayedPath` | shell4.py:213-218 | at the root the prompt shows `~`; at any other canonical path `~/` and the path's last segment |
| `Shell.Shell.NormalizePath` | shell4.py:220-242 | the append/pop loop computes `Normalize` of the current path and the target, a canonical path |
| `Shell.Shell.Ls` | shell4.py:279-311 | fails when not loaded, with more than one argument, or when the target is missing or is a file, each with its message; raises where the walk goes through a file; otherwise lists the target folder (`IsListing`) |
| `Shell.Shell.Cd` | shell4.py:313-340 | every failure (not loaded, too many arguments, missing, a file) leaves the current path unchanged; no argument moves to `/`; success moves to the normalised target; the current path stays a canonical folder |
| `Shell.Shell.Uniq` | shell4.py:376-409 | zero or two-plus arguments fail before the loaded check; a missing target or a folder fails with the read message; otherwise the output is `Collapse` of the lines, with no adjacent repeats |
| `Shell.Shell.ExecuteCommand` | shell4.py:244-277 | a parse error is `False` with its message; `exit` is `None` without arguments and `True` with a message otherwise; `ls`, `cd`, `cal` and `uniq` return their own code; `help`, `vfs-info` and `uname` give `True`; an unknown command prints its message and is `False` only in script mode |
| `Emulator.ParseInput` | shell_emulator.py:21-52 | the per-character loop over the three flags computes `Lex`, the fold of the one-character step |
| `Emulator.LexNoEmptyTokens` | shell_emulator.py:40-47 | no token is ever empty |
| `Emulator.LexPlain` | shell_emulator.py:39-44 | without quotes or backslashes the tokens are the whitespace split `s.split()` (`Words`): runs of whitespace make no extra tokens |
| `Emulator.QuotedWord` | shell_emulator.py:35-44 | inside quotes whitespace and the other quote character stay in the token, and the quotes themselves do not; `""` gives no token |
| `Emulator.QuotedSpan` | shell_emulator.py:35-44 | from a state with no quote open and no escape pending, a quoted span appends its inside to the current token and leaves the flags unchanged |
| `Emulator.QuotedAfter` | shell_emulator.py:29-44 | the same after any prefix that leaves no quote open and no escape pending |
| `Emulator.UnclosedQuote` | shell_emulator.py:49-50 | after any prefix that leaves no quote open and no escape pending, an unclosed single or double quote raises `ValueError("Незакрытые кавычки")` |
| `Emulator.RunWord` | shell_emulator.py:29-46 | outside quotes a plain word without whitespace extends the current token |
| `Emulator.EchoQuoted` | shell_emulator.py:185-189 | `echo` followed by a closed quote gives `["echo", w]` with the quote's inside as one argument |
| `Emulator.EchoUnclosed` | shell_emulator.py:190-191 | `echo` followed by an unclosed quote raises the unclosed-quotes error |
| `Emulator.ErrNeedsQuote` | shell_emulator.py:49-50 | an error needs a quote character in the input |
| `Emulator.QuotesNeverLeak` | shell_emulator.py:35-38 | with no backslash and no quote of the other kind, a quote character only toggles its flag and never appears in a token |
| `Emulator.EscapeIsLiteral` | shell_emulator.py:30-34 | a backslash adds the next character to the token whatever the quoting, single quotes included |
| `Emulator.TrailingBackslash` | shell_emulator.py:30-34 | a lone trailing backslash is dropped without error |
| `Emulator.Execute` | shell_emulator.py:55-90 | `""` exactly for no arguments; `EXIT_COMMAND` exactly for a bare `exit`; the too-many-arguments text for `exit` with more; `<cmd>: команда не найдена` for an unknown command; `cd` with two or more operands gives its too-many-arguments text; `cd` with at most one operand is handed to the host |
| `Scenario.CdIntoDocs` | shell4.py:313-340 | on the document with `/docs/readme.txt`, `cd docs` at `/` succeeds and moves to `/docs` |
| `Scenario.LsInDocs` | shell4.py:279-311 | `ls` in `/docs` lists exactly `readme.txt` |
| `Scenario.CdOutOfDocs` | shell4.py:313-340 | `cd ..` in `/docs` returns to `/` |
| `Scenario.UniqInDocs` | shell4.py:376-409 | `uniq readme.txt` in `/docs` prints `hi` |
| `Scenario.LaterSiblingWins` | shell4.py:85 | of two sibling files named `a`, the later one's content is the one in the tree |

## Left out

- XML parsing (`ET.fromstring`) is the parameter `parse`. Only the recursive build over the parsed element is modelled.
- `base64.b64decode(...).decode('utf-8')` and `hashlib.sha256(...).hexdigest()` are the parameters `decode` and `hash`. The digest is any 64-character lower-case hex string.
- The decode warning that `_parse_folder` prints, and the messages `load_from_xml` prints, are not modelled.
- File reading in `load_from_xml` is the parameter `source` (None when the file cannot be read).
- `_parse_folder` filling `children` dicts in place: the model returns each folder's children map as a value. Each folder object is reachable from exactly one parent, so the result is the same.
- `os.path.join` is modelled as POSIX `posixpath.join`, and `get_node` is exact for every path. Path lemmas that relate node paths to `get_node` assume plain names: non-empty, with no `/` and no `\`.
- `shlex.split` (shell4.py:246, shell3.py:190) is not modelled. `ExecuteCommand` takes its outcome, the tokens or the `ValueError` text.
- Vfs.FileSystem.ListDirectory: returns the set of names, not the list in insertion order. `ls` sorts them anyway.
- `ls`'s `items is None` branch (shell4.py:300-303) is not modelled: it cannot be reached once `is_directory` held.
- Commands.ParseInt: `int()` is modelled for an optional sign followed by ASCII digits. The whitespace stripping, underscores and non-ASCII digits that `int()` also accepts are not modelled.
- The calendar text that `cal` prints and `datetime.now()` are not modelled. Only the argument checks and the return code are.
- The printed text of `uname` (environment reads: platform, hostname, user, Python version) is not modelled. The model keeps only its return code. `help`'s text is modelled.
- `run_interactive`, `run_script`, `main`, argparse, `input()`, `print` and `KeyboardInterrupt` handling are I/O loops and are not modelled. The same goes for the configuration banner of `ComLineEm.__init__` and its `sys.exit` on a failed load.
- `cd` with at most one operand in shell_emulator.py's `execute_command` changes the host's working directory (`os.chdir`, shell_emulator.py:71-84). It is returned as `HostChdir` and not modelled further; its success and error texts are left out. `get_prompt` there reads the environment and is not modelled.
- Emulator.Execute: the `ls` branch prints the argument list through Python's `str(list)`. That is modelled as `[`, the items' `repr` (a parameter) joined by `, `, and `]`.
- shell3.py's `ls`, `cd`, `vfs_info` and `help` only print. Only its return codes are modelled (`Draft.Dispatch`).
- shell2.py only echoes its arguments. Its return codes are those of shell3.py except for `vfs-info`, which shell2.py does not know: there it is an unknown command (`False` in script mode, shell2.py:104-107). shell2.py is not part of this model.

=== FILE: commands.dfy ===
/**
 * The parts of shell4.py's commands that do not touch the session: the
 * return codes, the messages, the adjacent-duplicate filter of `uniq`, the
 * argument checks of `cal` and the sorted listing of `ls`.
 */
module Commands {
  import opened Wrappers
  import opened Text

  /**
   * What `execute_command` hands back to the read-eval loop: `None` (Exit),
   * `False` (Failure), `True` (Success), or an exception that escapes it (Crash).
   */
  datatype Status = Exit | Failure | Success | Crash

  const NotLoaded := "Ошибка: VFS не загружена"
  const TooManyArgs := "Ошибка: слишком много аргументов"
  const NoSuchPath := "Ошибка: путь не существует: "
  const NotADirectory := "Ошибка: не является директорией: "
  const EmptyFolder := "Директория пуста"
  const NoFileGiven := "Ошибка: укажите файл"
  const CannotRead := "Ошибка: файл не существует или не может быть прочитан: "
  const ExitTakesNoArgs := "Команда exit не принимает аргументы"
  const ParseErrorPrefix := "Ошибка парсинга: "
  const VfsInfoTakesNoArgs := "Команда vfs-info не принимает аргументы"
  const VfsNotLoadedNotice := "VFS не загружена"
  const YearRange := "Ошибка: год должен быть в диапазоне 1-9999"
  const MonthYearRange := "Ошибка: месяц должен быть 1-12, год 1-9999"
  const WrongArity := "Ошибка: неверное количество аргументов"
  const CalUsage := "Использование: cal [год] или cal [месяц] [год]"
  const NotNumbers := "Ошибка: аргументы должны быть числами"

  function UnknownCommand(command: string): string
  {
    "Ошибка: неизвестная команда '" + command + "'"
  }

  /** The command names shell4.py's `execute_command` dispatches on. */
  const KnownCommands: set<string> := {"exit", "ls", "cd", "help", "vfs-info", "cal", "uniq", "uname"}

  // ---- uniq ----

  predicate NoAdjacentRepeats(s: seq<string>)
  {
    forall i :: 0 < i < |s| ==> s[i] != s[i - 1]
  }

  /**
   * The lines `uniq` prints: each line is emitted unless it equals the line
   * emitted last (`previous_line`).
   */
  function Collapse(lines: seq<string>): (r: seq<string>)
    ensures r == [] <==> lines == []
    ensures lines != [] ==> r[0] == lines[0] && r[|r| - 1] == lines[|lines| - 1]
    ensures NoAdjacentRepeats(r)
    decreases |lines|
  {
    if lines == [] then []
    else
      var before := Collapse(lines[..|lines| - 1]);
      var line := lines[|lines| - 1];
      if before != [] && before[|before| - 1] == line then before else before + [line]
  }

  /** The lines that differ from the line just before them in the input, the first line always. */
  function RunHeads(lines: seq<string>): seq<string>
    decreases |lines|
  {
    if |lines| <= 1 then lines
    else
      var n := |lines|;
      RunHeads(lines[..n - 1]) + (if lines[n - 1] != lines[n - 2] then [lines[n - 1]] else [])
  }

  /** `a` is `b` with some elements left out, the rest in their order. */
  ghost predicate IsSubsequence(a: seq<string>, b: seq<string>)
  {
    exists idx: seq<int> ::
      |idx| == |a| &&
      (forall k :: 0 <= k < |idx| ==> 0 <= idx[k] < |b| && b[idx[k]] == a[k]) &&
      (forall k :: 0 < k < |idx| ==> idx[k - 1] < idx[k])
  }

  /** Comparing with the last emitted line is comparing with the previous input line: uniq keeps exactly the first line of every run (shell4.py:397-404). */
  lemma {:induction false} CollapseIsRunHeads(lines: seq<string>)
    ensures Collapse(lines) == RunHeads(lines)
    decreases |lines|
  {
    var n := |lines|;
    if n == 1 {
      assert lines[..0] == [];
    } else if n > 1 {
      CollapseIsRunHeads(lines[..n - 1]);
      assert lines[..n - 1][n - 2] == lines[n - 2];
    }
  }

  /** The positions in `lines` that RunHeads picks, in increasing order. */
  lemma {:induction false} RunHeadsPositions(lines: seq<string>) returns (idx: seq<int>)
    ensures |idx| == |RunHeads(lines)|
    ensures forall k :: 0 <= k < |idx| ==> 0 <= idx[k] < |lines| && lines[idx[k]] == RunHeads(lines)[k]
    ensures forall k :: 0 < k < |idx| ==> idx[k - 1] < idx[k]
    decreases |lines|
  {
    var n := |lines|;
    if n == 0 {
      idx := [];
    } else if n == 1 {
      idx := [0];
    } else {
      var prefix := lines[..n - 1];
      var before := RunHeads(prefix);
      var pos := RunHeadsPositions(prefix);
      assert forall k :: 0 <= k < |pos| ==> lines[pos[k]] == prefix[pos[k]];
      if lines[n - 1] != lines[n - 2] {
        idx := pos + [n - 1];
        assert RunHeads(lines) == before + [lines[n - 1]];
      } else {
        idx := pos;
        assert RunHeads(lines) == before;
      }
    }
  }

  lemma RunHeadsSubsequence(lines: seq<string>)
    ensures IsSubsequence(RunHeads(lines), lines)
  {
    var idx := RunHeadsPositions(lines);
    assert |idx| == |RunHeads(lines)|;
  }

  /** What uniq prints keeps the input's order and invents nothing (shell4.py:397-407). */
  lemma CollapseIsSubsequence(lines: seq<string>)
    ensures IsSubsequence(Collapse(lines), lines)
  {
    CollapseIsRunHeads(lines);
    RunHeadsSubsequence(lines);
  }

  /** A line without a newline, then a newline, splits off as one piece. */
  lemma SplitLine(x: string, rest: string)
    requires '\n' !in x
    ensures Split(x + ['\n'] + rest, '\n') == [x] + Split(rest, '\n')
  {
    SplitAppend(x, rest, '\n');
    SplitWithoutSep(x, '\n');
  }

  /** The text of a file whose every line ends with a newline. */
  function Terminated(lines: seq<string>): string
    decreases |lines|
  {
    if lines == [] then "" else lines[0] + ['\n'] + Terminated(lines[1..])
  }

  /** Splitting newline-terminated text gives its lines and then one empty piece. */
  lemma {:induction false} SplitTerminated(lines: seq<string>)
    requires forall i :: 0 <= i < |lines| ==> '\n' !in lines[i]
    ensures Split(Terminated(lines), '\n') == lines + [""]
    decreases |lines|
  {
    if lines == [] {
      SplitWithoutSep("", '\n');
    } else {
      SplitLine(lines[0], Terminated(lines[1..]));
      SplitTerminated(lines[1..]);
      assert [lines[0]] + (lines[1..] + [""]) == lines + [""];
    }
  }

  /** Two equal adjacent lines collapse into one; a line equal to one further back stays. */
  lemma CollapseRuns(a: string, b: string)
    requires a != b && a != ""
    ensures Collapse([a, a, b, a, ""]) == [a, b, a, ""]
  {
    assert Collapse([a]) == [a];
    CollapseSnoc([a], a);
    assert [a] + [a] == [a, a];
    CollapseSnoc([a, a], b);
    assert [a, a] + [b] == [a, a, b];
    CollapseSnoc([a, a, b], a);
    assert [a, a, b] + [a] == [a, a, b, a];
    CollapseSnoc([a, a, b, a], "");
    assert [a, a, b, a] + [""] == [a, a, b, a, ""];
  }

  /** The second run of `a` is kept apart from the first, and the empty piece after the final newline is kept too. */
  lemma CollapseExample()
    ensures Collapse(Split("a\na\nb\na\n", '\n')) == ["a", "b", "a", ""]
  {
    var lines := ["a", "a", "b", "a"];
    assert Terminated(lines) == "a\na\nb\na\n";
    SplitTerminated(lines);
    assert lines + [""] == ["a", "a", "b", "a", ""];
    CollapseRuns("a", "b");
  }

  /** One more line is dropped exactly when it repeats the last line kept. */
  lemma CollapseSnoc(lines: seq<string>, line: string)
    ensures var before := Collapse(lines);
      Collapse(lines + [line]) == if before != [] && before[|before| - 1] == line then before else before + [line]
  {
    assert (lines + [line])[..|lines|] == lines;
  }

  /** The loop of `uniq` (shell4.py:397-404): keep a line unless it equals the last one kept. */
  method UniqLines(all: seq<string>) returns (unique: seq<string>)
    ensures unique == Collapse(all)
  {
    unique := [];
    var previous: Option<string> := None;
    for i := 0 to |all|
      invariant unique == Collapse(all[..i])
      invariant previous == if unique == [] then None else Some(unique[|unique| - 1])
    {
      assert all[..i + 1] == all[..i] + [all[i]];
      CollapseSnoc(all[..i], all[i]);
      var line := all[i];
      if previous != Some(line) {
        unique := unique + [line];
        previous := Some(line);
      }
    }
    assert all[..|all|] == all;
  }

  // ---- cal ----

  predicate IsDigit(c: char)
  {
    '0' <= c <= '9'
  }

  predicate AllDigits(s: string)
  {
    forall i :: 0 <= i < |s| ==> IsDigit(s[i])
  }

  function DigitsValue(s: string): nat
    requires AllDigits(s)
    decreases |s|
  {
    if s == [] then 0 else 10 * DigitsValue(s[..|s| - 1]) + (s[|s| - 1] as int - '0' as int)
  }

  /** `int(s)` on an optional sign followed by ASCII digits; None where it raises ValueError. */
  function ParseInt(s: string): Option<int>
  {
    if |s| > 1 && (s[0] == '+' || s[0] == '-') && AllDigits(s[1..]) then
      var v: int := DigitsValue(s[1..]);
      Some(if s[0] == '-' then -v else v)
    else if s != [] && AllDigits(s) then Some(DigitsValue(s))
    else None
  }

  /** `str(n)` for a natural number. */
  function Decimal(n: nat): (r: string)
    ensures r != [] && AllDigits(r)
    decreases n
  {
    (if n < 10 then "" else Decimal(n / 10)) + [('0' as int + n % 10) as char]
  }

  lemma {:induction false} DecimalValue(n: nat)
    ensures DigitsValue(Decimal(n)) == n
    decreases n
  {
    var r := Decimal(n);
    assert r[..|r| - 1] == if n < 10 then "" else Decimal(n / 10);
    if n >= 10 {
      DecimalValue(n / 10);
    }
  }

  /** Parsing the decimal rendering of a number gives the number back. */
  lemma ParseDecimal(n: nat)
    ensures ParseInt(Decimal(n)) == Some(n)
  {
    DecimalValue(n);
    var r := Decimal(n);
    assert r[0] != '+' && r[0] != '-' by {
      assert IsDigit(r[0]);
    }
  }

  /** What `cal` does with its arguments: a calendar to print, or the error lines. */
  datatype CalPlan = CurrentMonth | WholeYear(year: int) | OneMonth(month: int, year: int) | CalError(lines: seq<string>)

  predicate ValidYear(y: int) { 1 <= y <= 9999 }

  predicate ValidMonth(m: int) { 1 <= m <= 12 }

  /** The argument checks of `cal` (shell4.py:342-374); the printed calendar is not modelled. */
  function Cal(args: seq<string>): (r: CalPlan)
    ensures r == CurrentMonth <==> args == []
    ensures r.WholeYear? <==> |args| == 1 && ParseInt(args[0]).Some? && ValidYear(ParseInt(args[0]).value)
    ensures r.WholeYear? ==> r.year == ParseInt(args[0]).value
    ensures r.OneMonth? <==> (|args| == 2 && ParseInt(args[0]).Some? && ParseInt(args[1]).Some? &&
                              ValidMonth(ParseInt(args[0]).value) && ValidYear(ParseInt(args[1]).value))
    ensures r.OneMonth? ==> r.month == ParseInt(args[0]).value && r.year == ParseInt(args[1]).value
    ensures r.CalError? && |args| > 2 ==> r.lines == [WrongArity, CalUsage]
    ensures r.CalError? && 1 <= |args| <= 2 && (exists i :: 0 <= i < |args| && ParseInt(args[i]).None?) ==> r.lines == [NotNumbers]
    ensures r.CalError? && |args| == 1 && ParseInt(args[0]).Some? ==> r.lines == [YearRange]
    ensures r.CalError? && |args| == 2 && ParseInt(args[0]).Some? && ParseInt(args[1]).Some? ==> r.lines == [MonthYearRange]
  {
    if |args| == 0 then CurrentMonth
    else if |args| == 1 then
      match ParseInt(args[0])
      case None => CalError([NotNumbers])
      case Some(year) => if ValidYear(year) then WholeYear(year) else CalError([YearRange])
    else if |args| == 2 then
      match ParseInt(args[0])
      case None => CalError([NotNumbers])
      case Some(month) =>
        match ParseInt(args[1])
        case None => CalError([NotNumbers])
        case Some(year) => if ValidMonth(month) && ValidYear(year) then OneMonth(month, year) else CalError([MonthYearRange])
    else CalError([WrongArity, CalUsage])
  }

  /** `cal 13 2024` is refused with the range message. */
  lemma CalRejectsMonth13()
    ensures Cal(["13", "2024"]) == CalError([MonthYearRange])
  {
    assert ParseInt("13") == Some(13) by {
      assert AllDigits("13");
      assert "13"[..1] == "1" && "1"[..0] == "";
    }
    assert ParseInt("2024") == Some(2024) by {
      assert AllDigits("2024");
      assert "2024"[..3] == "202" && "202"[..2] == "20" && "20"[..1] == "2" && "2"[..0] == "";
    }
  }

  // ---- ls ----

  /** What `ls` prints for a folder with these names: the empty notice, or the names in sorted order. */
  ghost predicate IsListing(lines: seq<string>, names: set<string>)
  {
    if names == {} then lines == [EmptyFolder]
    else StrictlySorted(lines) && forall x :: x in lines <==> x in names
  }

  /** `sorted(items)` for the keys of a folder. */
  method SortedNames(names: set<string>) returns (sorted: seq<string>)
    ensures StrictlySorted(sorted)
    ensures forall x :: x in sorted <==> x in names
  {
    sorted := [];
    var rest := names;
    while rest != {}
      invariant rest <= names
      invariant forall x :: x in names <==> x in sorted || x in rest
      invariant forall x :: x in sorted ==> x !in rest
      invariant StrictlySorted(sorted)
      invariant forall i, x :: 0 <= i < |sorted| && x in rest ==> Below(sorted[i], x)
      decreases |rest|
    {
      LeastExists(rest);
      var m :| m in rest && forall x :: x in rest && x != m ==> Below(m, x);
      sorted := sorted + [m];
      rest := rest - {m};
    }
  }

  /** A listing is determined by the names: there is exactly one. */
  lemma ListingUnique(a: seq<string>, b: seq<string>, names: set<string>)
    requires IsListing(a, names) && IsListing(b, names)
    ensures a == b
  {
    if names != {} {
      SortedUnique(a, b);
    }
  }
}

=== FILE: draft.dfy ===
/**
 * The return codes of shell3.py's `execute_command`, the draft before the
 * commands touched the tree: `ls` and `cd` there only echo their arguments.
 */
module Draft {
  import opened Wrappers
  import opened Commands

  /** The command names shell3.py dispatches on. */
  const DraftCommands: set<string> := {"exit", "ls", "cd", "help", "vfs-info"}

  /** The value shell3.py's `execute_command` returns for the tokens `shlex.split` produced (or the error it raised). */
  function Dispatch(parsed: Result<seq<string>, string>, fromScript: bool): (r: Status)
    ensures r == Exit <==> parsed == Ok(["exit"])
    ensures r == Crash <==> parsed == Ok([])
    ensures r == Failure <==> parsed.Err? || (fromScript && parsed.Ok? && |parsed.value| > 0 && parsed.value[0] !in DraftCommands)
    ensures r == Success <==> parsed.Ok? && |parsed.value| > 0 && parsed != Ok(["exit"]) && (!fromScript || parsed.value[0] in DraftCommands)
  {
    match parsed
    case Err(_) => Failure
    case Ok(tokens) =>
      if tokens == [] then Crash
      else if tokens[0] == "exit" then (
        if tokens[1..] == [] then
          // no arguments after `exit`: the tokens are exactly the bare command
          assert |tokens| == 1 && tokens[0] == "exit";
          assert tokens == ["exit"];
          Exit
        else Success)
      else if tokens[0] in DraftCommands then Success
      else if fromScript then Failure
      else Success
  }
}

=== FILE: emulator.dfy ===
/**
 * shell_emulator.py, the first draft: a quote- and escape-aware tokenizer
 * (`parse_input`) and the host-independent branches of `execute_command`.
 */
module Emulator {
  import opened Wrappers
  import Paths

  /** `str.isspace()` for one character. */
  predicate IsSpace(c: char)
  {
    var n := c as int;
    (0x09 <= n <= 0x0d) || (0x1c <= n <= 0x20) || n == 0x85 || n == 0xa0 || n == 0x1680 ||
    (0x2000 <= n <= 0x200a) || n == 0x2028 || n == 0x2029 || n == 0x202f || n == 0x205f || n == 0x3000
  }

  const UnclosedQuotes := "Незакрытые кавычки"

  /** The state of `parse_input` between two characters. */
  datatype Lexer = Lexer(tokens: seq<string>, current: string, doubleQuoted: bool, singleQuoted: bool, escaped: bool)

  const Start := Lexer([], "", false, false, false)

  /** One turn of the loop of `parse_input`. */
  function Feed(l: Lexer, c: char): Lexer
  {
    if l.escaped then l.(current := l.current + [c], escaped := false)
    else if c == '\\' then l.(escaped := true)
    else if c == '"' && !l.singleQuoted then l.(doubleQuoted := !l.doubleQuoted)
    else if c == '\'' && !l.doubleQuoted then l.(singleQuoted := !l.singleQuoted)
    else if IsSpace(c) && !(l.doubleQuoted || l.singleQuoted) then
      if l.current != "" then l.(tokens := l.tokens + [l.current], current := "") else l
    else l.(current := l.current + [c])
  }

  /** The loop over all characters. */
  function Run(l: Lexer, s: string): Lexer
    decreases |s|
  {
    if s == [] then l else Run(Feed(l, s[0]), s[1..])
  }

  /** What follows the loop: the last token is flushed, and an open quote raises. */
  function Finish(l: Lexer): Result<seq<string>, string>
  {
    var tokens := if l.current != "" then l.tokens + [l.current] else l.tokens;
    if l.doubleQuoted || l.singleQuoted then Err(UnclosedQuotes) else Ok(tokens)
  }

  /** What `parse_input(s)` returns, or the `ValueError` it raises. */
  function Lex(s: string): Result<seq<string>, string>
  {
    Finish(Run(Start, s))
  }

  /** `parse_input`: the per-character loop over the three flags. */
  method ParseInput(input: string) returns (r: Result<seq<string>, string>)
    ensures r == Lex(input)
  {
    var tokens: seq<string> := [];
    var current: string := "";
    var inDouble, inSingle, escaped := false, false, false;
    for i := 0 to |input|
      invariant Run(Lexer(tokens, current, inDouble, inSingle, escaped), input[i..]) == Run(Start, input)
    {
      assert input[i..][0] == input[i] && input[i..][1..] == input[i + 1..];
      var c := input[i];
      if escaped {
        current := current + [c];
        escaped := false;
      } else if c == '\\' {
        escaped := true;
      } else if c == '"' && !inSingle {
        inDouble := !inDouble;
      } else if c == '\'' && !inDouble {
        inSingle := !inSingle;
      } else if IsSpace(c) && !(inDouble || inSingle) {
        if current != "" {
          tokens := tokens + [current];
          current := "";
        }
      } else {
        current := current + [c];
      }
    }
    assert input[|input|..] == [];
    if current != "" {
      tokens := tokens + [current];
    }
    if inDouble || inSingle {
      return Err(UnclosedQuotes);
    }
    return Ok(tokens);
  }

  lemma {:induction false} RunAppend(l: Lexer, a: string, b: string)
    ensures Run(l, a + b) == Run(Run(l, a), b)
    decreases |a|
  {
    if a == [] {
      assert a + b == b;
    } else {
      assert (a + b)[0] == a[0] && (a + b)[1..] == a[1..] + b;
      RunAppend(Feed(l, a[0]), a[1..], b);
    }
  }

  // ---- no empty tokens ----

  predicate NoEmptyTokens(l: Lexer)
  {
    forall i :: 0 <= i < |l.tokens| ==> l.tokens[i] != ""
  }

  lemma {:induction false} RunKeepsTokensNonEmpty(l: Lexer, s: string)
    requires NoEmptyTokens(l)
    ensures NoEmptyTokens(Run(l, s))
    decreases |s|
  {
    if s != [] {
      RunKeepsTokensNonEmpty(Feed(l, s[0]), s[1..]);
    }
  }

  /** A token is pushed only when it has characters. */
  lemma LexNoEmptyTokens(s: string)
    ensures Lex(s).Ok? ==> forall i :: 0 <= i < |Lex(s).value| ==> Lex(s).value[i] != ""
  {
    RunKeepsTokensNonEmpty(Start, s);
  }

  // ---- plain input is a whitespace split ----

  /** A character with no quoting meaning. */
  predicate IsPlain(c: char)
  {
    c != '"' && c != '\'' && c != '\\'
  }

  predicate AllPlain(s: string)
  {
    forall i :: 0 <= i < |s| ==> IsPlain(s[i])
  }

  predicate NoSpace(s: string)
  {
    forall i :: 0 <= i < |s| ==> !IsSpace(s[i])
  }

  /** The pieces between single whitespace characters. */
  function Fields(s: string): (r: seq<string>)
    ensures |r| >= 1
    decreases |s|
  {
    if s == [] then [""]
    else
      var rest := Fields(s[1..]);
      if IsSpace(s[0]) then [""] + rest else [[s[0]] + rest[0]] + rest[1..]
  }

  /** `s.split()`: the non-empty pieces between whitespace. */
  function Words(s: string): seq<string>
  {
    Paths.NonEmpty(Fields(s))
  }

  lemma {:induction false} FieldsNoSpace(a: string)
    requires NoSpace(a)
    ensures Fields(a) == [a]
    decreases |a|
  {
    if a != [] {
      FieldsNoSpace(a[1..]);
      assert [a[0]] + a[1..] == a;
    }
  }

  lemma {:induction false} FieldsSpace(a: string, c: char, b: string)
    requires NoSpace(a) && IsSpace(c)
    ensures Fields(a + [c] + b) == [a] + Fields(b)
    decreases |a|
  {
    var s := a + [c] + b;
    if a == [] {
      assert s[0] == c && s[1..] == b;
    } else {
      assert s[0] == a[0] && s[1..] == a[1..] + [c] + b;
      FieldsSpace(a[1..], c, b);
      assert [a[0]] + a[1..] == a;
    }
  }

  lemma WordsSpace(current: string, c: char, rest: string)
    requires NoSpace(current) && IsSpace(c)
    ensures Words(current + [c] + rest) == (if current == "" then [] else [current]) + Words(rest)
  {
    FieldsSpace(current, c, rest);
    var fs := [current] + Fields(rest);
    assert fs[0] == current && fs[1..] == Fields(rest);
  }

  lemma WordsNoSpace(current: string)
    requires NoSpace(current)
    ensures Words(current) == (if current == "" then [] else [current])
  {
    FieldsNoSpace(current);
    assert [current][1..] == [];
    assert Paths.NonEmpty([current]) == (if current == "" then [] else [current]) + Paths.NonEmpty([]);
  }

  lemma {:induction false} RunPlain(tokens: seq<string>, current: string, s: string)
    requires NoSpace(current) && AllPlain(s)
    ensures Finish(Run(Lexer(tokens, current, false, false, false), s)) == Ok(tokens + Words(current + s))
    decreases |s|
  {
    var l := Lexer(tokens, current, false, false, false);
    if s == [] {
      WordsNoSpace(current);
      assert current + s == current;
      assert tokens + [] == tokens;
    } else {
      var c := s[0];
      var rest := s[1..];
      assert IsPlain(c) && AllPlain(rest);
      assert current + s == current + [c] + rest;
      if IsSpace(c) {
        var tokens' := if current != "" then tokens + [current] else tokens;
        assert Feed(l, c) == Lexer(tokens', "", false, false, false);
        RunPlain(tokens', "", rest);
        WordsSpace(current, c, rest);
        assert "" + rest == rest;
        assert tokens' + Words(rest) == tokens + Words(current + s);
      } else {
        assert Feed(l, c) == Lexer(tokens, current + [c], false, false, false);
        RunPlain(tokens, current + [c], rest);
      }
    }
  }

  /** Without quotes or backslashes the tokens are the whitespace-separated words. */
  lemma LexPlain(s: string)
    requires AllPlain(s)
    ensures Lex(s) == Ok(Words(s))
  {
    RunPlain([], "", s);
    assert "" + s == s;
    assert [] + Words(s) == Words(s);
  }

  // ---- quotes ----

  /** The flag a quote character toggles is set, the other quote's flag is clear, and no escape is pending. */
  predicate InQuote(l: Lexer, q: char)
  {
    !l.escaped &&
    (q == '"' ==> l.doubleQuoted && !l.singleQuoted) &&
    (q == '\'' ==> l.singleQuoted && !l.doubleQuoted)
  }

  lemma {:induction false} RunQuoted(l: Lexer, q: char, w: string)
    requires q == '"' || q == '\''
    requires InQuote(l, q)
    requires forall i :: 0 <= i < |w| ==> w[i] != q && w[i] != '\\'
    ensures Run(l, w) == l.(current := l.current + w)
    decreases |w|
  {
    if w == [] {
      assert l.current + w == l.current;
    } else {
      var l' := l.(current := l.current + [w[0]]);
      assert Feed(l, w[0]) == l';
      RunQuoted(l', q, w[1..]);
      assert l.current + [w[0]] + w[1..] == l.current + w;
    }
  }

  /** Outside quotes and escapes, a quoted span adds its inside to the current token and leaves the flags as they were. */
  lemma QuotedSpan(l: Lexer, q: char, w: string)
    requires q == '"' || q == '\''
    requires !l.doubleQuoted && !l.singleQuoted && !l.escaped
    requires forall i :: 0 <= i < |w| ==> w[i] != q && w[i] != '\\'
    ensures Run(l, [q] + w + [q]) == l.(current := l.current + w)
  {
    var open := Feed(l, q);
    RunAppend(l, [q] + w, [q]);
    RunAppend(l, [q], w);
    assert [q][1..] == [];
    assert Run(l, [q]) == open;
    RunQuoted(open, q, w);
    var filled := open.(current := l.current + w);
    assert Run(open, w) == filled;
    assert Run(filled, [q]) == Feed(filled, q);
  }

  /** Inside quotes everything but the closing quote and a backslash is kept, whitespace and the other quote included. */
  lemma QuotedWord(q: char, w: string)
    requires q == '"' || q == '\''
    requires forall i :: 0 <= i < |w| ==> w[i] != q && w[i] != '\\'
    ensures Lex([q] + w + [q]) == Ok(if w == [] then [] else [w])
  {
    QuotedSpan(Start, q, w);
    assert "" + w == w;
    assert [] + [w] == [w];
  }

  /** After any prefix that leaves no quote open and no escape pending, a quoted span joins the token being built. */
  lemma QuotedAfter(s: string, q: char, w: string)
    requires q == '"' || q == '\''
    requires Unquoted(Run(Start, s)) && !Run(Start, s).escaped
    requires forall i :: 0 <= i < |w| ==> w[i] != q && w[i] != '\\'
    ensures Run(Start, s + [q] + w + [q]) == Run(Start, s).(current := Run(Start, s).current + w)
  {
    assert s + [q] + w + [q] == s + ([q] + w + [q]);
    RunAppend(Start, s, [q] + w + [q]);
    QuotedSpan(Run(Start, s), q, w);
  }

  /** A quote left open raises, whatever came before it. */
  lemma UnclosedQuote(s: string, q: char, w: string)
    requires q == '"' || q == '\''
    requires Unquoted(Run(Start, s)) && !Run(Start, s).escaped
    requires forall i :: 0 <= i < |w| ==> w[i] != q && w[i] != '\\'
    ensures Lex(s + [q] + w) == Err(UnclosedQuotes)
  {
    assert s + [q] + w == s + ([q] + w);
    RunAppend(Start, s, [q] + w);
    RunAppend(Run(Start, s), [q], w);
    RunQuoted(Feed(Run(Start, s), q), q, w);
  }

  /** Outside quotes, a plain word without whitespace extends the current token. */
  lemma {:induction false} RunWord(l: Lexer, w: string)
    requires Unquoted(l) && !l.escaped && AllPlain(w) && NoSpace(w)
    ensures Run(l, w) == l.(current := l.current + w)
    decreases |w|
  {
    if w == [] {
      assert l.current + w == l.current;
    } else {
      assert IsPlain(w[0]) && !IsSpace(w[0]);
      var l' := l.(current := l.current + [w[0]]);
      assert Feed(l, w[0]) == l';
      assert AllPlain(w[1..]) && NoSpace(w[1..]) by {
        assert forall i :: 0 <= i < |w[1..]| ==> w[1..][i] == w[i + 1];
      }
      RunWord(l', w[1..]);
      assert l.current + [w[0]] + w[1..] == l.current + w;
    }
  }

  /** `echo ` leaves the token `echo` and nothing open. */
  lemma RunEcho()
    ensures Run(Start, "echo ") == Lexer(["echo"], "", false, false, false)
  {
    var echo := "echo";
    assert AllPlain(echo) && NoSpace(echo);
    RunWord(Start, echo);
    assert "" + echo == echo;
    RunAppend(Start, echo, " ");
    assert echo + " " == "echo ";
    assert IsSpace(' ');
    assert Run(Start.(current := echo), " ") == Feed(Start.(current := echo), ' ');
  }

  /** The demonstration script's `echo "hello world"` and `echo 'hello"world'`: a closed quote makes its inside one argument. */
  lemma EchoQuoted(q: char, w: string)
    requires q == '"' || q == '\''
    requires w != [] && forall i :: 0 <= i < |w| ==> w[i] != q && w[i] != '\\'
    ensures Lex("echo " + [q] + w + [q]) == Ok(["echo", w])
  {
    var l := Lexer(["echo"], "", false, false, false);
    RunEcho();
    QuotedAfter("echo ", q, w);
    assert "" + w == w;
    assert Run(Start, "echo " + [q] + w + [q]) == l.(current := w);
    assert ["echo"] + [w] == ["echo", w];
  }

  /** The demonstration script's `echo "unclosed quote` and `echo 'unclosed quote`: the open quote raises. */
  lemma EchoUnclosed(q: char, w: string)
    requires q == '"' || q == '\''
    requires forall i :: 0 <= i < |w| ==> w[i] != q && w[i] != '\\'
    ensures Lex("echo " + [q] + w) == Err(UnclosedQuotes)
  {
    RunEcho();
    UnclosedQuote("echo ", q, w);
  }

  predicate Unquoted(l: Lexer)
  {
    !l.doubleQuoted && !l.singleQuoted
  }

  lemma {:induction false} RunWithoutQuotes(l: Lexer, s: string)
    requires Unquoted(l)
    requires forall i :: 0 <= i < |s| ==> s[i] != '"' && s[i] != '\''
    ensures Unquoted(Run(l, s))
    decreases |s|
  {
    if s != [] {
      RunWithoutQuotes(Feed(l, s[0]), s[1..]);
    }
  }

  /** Only a quote character can make `parse_input` raise. */
  lemma ErrNeedsQuote(s: string)
    requires Lex(s).Err?
    ensures exists i :: 0 <= i < |s| && (s[i] == '"' || s[i] == '\'')
  {
    if forall i :: 0 <= i < |s| ==> s[i] != '"' && s[i] != '\'' {
      RunWithoutQuotes(Start, s);
      assert false;
    }
  }

  /** No pending escape, the flag of the other quote clear, and `q` in no token so far. */
  predicate QuoteFree(l: Lexer, q: char)
  {
    !l.escaped && (q == '"' ==> !l.singleQuoted) && (q == '\'' ==> !l.doubleQuoted) &&
    q !in l.current && forall i :: 0 <= i < |l.tokens| ==> q !in l.tokens[i]
  }

  lemma {:induction false} RunQuoteFree(l: Lexer, q: char, other: char, s: string)
    requires (q == '"' && other == '\'') || (q == '\'' && other == '"')
    requires QuoteFree(l, q)
    requires forall i :: 0 <= i < |s| ==> s[i] != '\\' && s[i] != other
    ensures QuoteFree(Run(l, s), q)
    decreases |s|
  {
    if s != [] {
      RunQuoteFree(Feed(l, s[0]), q, other, s[1..]);
    }
  }

  /** Without backslashes and without the other kind of quote, a quote character only toggles its flag and never reaches a token. */
  lemma QuotesNeverLeak(q: char, other: char, s: string)
    requires (q == '"' && other == '\'') || (q == '\'' && other == '"')
    requires forall i :: 0 <= i < |s| ==> s[i] != '\\' && s[i] != other
    ensures Lex(s).Ok? ==> forall i :: 0 <= i < |Lex(s).value| ==> q !in Lex(s).value[i]
  {
    RunQuoteFree(Start, q, other, s);
  }

  // ---- backslashes ----

  /** A backslash makes the next character part of the token, whatever the quoting. */
  lemma EscapeIsLiteral(l: Lexer, c: char, s: string)
    requires !l.escaped
    ensures Run(l, ['\\', c] + s) == Run(l.(current := l.current + [c]), s)
  {
    RunAppend(l, ['\\', c], s);
    assert ['\\', c][1..] == [c];
  }

  /** A lone backslash at the end is dropped without error. */
  lemma TrailingBackslash(s: string)
    requires !Run(Start, s).escaped
    ensures Lex(s + ['\\']) == Lex(s)
  {
    RunAppend(Start, s, ['\\']);
  }

  // ---- execute_command ----

  const ExitCommand := "EXIT_COMMAND"
  const ExitTooManyArgs := "exit: слишком много аргументов"
  const CdTooManyArgs := "cd: слишком много аргументов"
  const NotFoundSuffix := ": команда не найдена"

  /** What `execute_command` hands back: a string, or, for `cd`, a change of the host's working directory (not modelled). */
  datatype Response = Text(text: string) | HostChdir(args: seq<string>)

  /** `str(list)` for a list of strings, given `repr` of one string. */
  function ListRepr(items: seq<string>, repr: string -> string): string
  {
    "[" + ReprItems(items, repr) + "]"
  }

  function ReprItems(items: seq<string>, repr: string -> string): string
    decreases |items|
  {
    if items == [] then ""
    else if |items| == 1 then repr(items[0])
    else repr(items[0]) + ", " + ReprItems(items[1..], repr)
  }

  /** `execute_command(args)` of shell_emulator.py. */
  function Execute(args: seq<string>, repr: string -> string): (r: Response)
    ensures r == Text("") <==> args == []
    ensures r == Text(ExitCommand) <==> args == ["exit"]
    ensures r.HostChdir? <==> args != [] && args[0] == "cd" && |args| <= 2
    ensures args != [] && args[0] == "cd" && |args| > 2 ==> r == Text(CdTooManyArgs)
    ensures args != [] && args[0] == "exit" && |args| > 1 ==> r == Text(ExitTooManyArgs)
    ensures args != [] && args[0] !in {"exit", "ls", "cd"} ==> r == Text(args[0] + NotFoundSuffix)
  {
    if args == [] then Text("")
    else
      var command := args[0];
      if command == "exit" then
        if |args| > 1 then Text(ExitTooManyArgs)
        else
          // one token, and it is `exit`: exactly the bare command
          assert args == ["exit"];
          Text(ExitCommand)
      else if command == "ls" then
        var t := "ls: аргументы " + ListRepr(args[1..], repr);
        // starting with `l`, the text is neither "" nor EXIT_COMMAND
        assert t[0] == 'l';
        Text(t)
      else if command == "cd" then
        if |args| > 2 then Text(CdTooManyArgs) else HostChdir(args)
      else
        var t := command + NotFoundSuffix;
        // ending in the suffix's last letter, the text is neither "" nor EXIT_COMMAND
        assert t[|t| - 1] == 'а';
        Text(t)
  }
}

=== FILE: paths.dfy ===
/**
 * The lexical path resolver of the shell (`ComLineEm._normalize_path` and
 * `_get_display_path` in shell4.py): pure string work that never looks at
 * the tree.
 */
module Paths {
  import opened Text

  /** A segment that may stand in a canonical path. */
  predicate IsSegment(seg: string)
  {
    seg != "" && seg != "." && seg != ".." && '/' !in seg
  }

  /** Every segment is non-empty and free of the separator. */
  predicate Named(segs: seq<string>)
  {
    forall i :: 0 <= i < |segs| ==> segs[i] != "" && '/' !in segs[i]
  }

  /** Every segment may stand in a canonical path. */
  predicate Segments(segs: seq<string>)
  {
    forall i :: 0 <= i < |segs| ==> IsSegment(segs[i])
  }

  /** One segment against the result stack: skip, pop (a no-op when empty) or push. */
  function Step(stack: seq<string>, seg: string): seq<string>
  {
    if seg == "" || seg == "." then stack
    else if seg == ".." then (if stack != [] then stack[..|stack| - 1] else stack)
    else stack + [seg]
  }

  /** The segments processed left to right. */
  function Steps(stack: seq<string>, segs: seq<string>): seq<string>
    decreases |segs|
  {
    if segs == [] then stack else Steps(Step(stack, segs[0]), segs[1..])
  }

  /** The path string before normalisation: an absolute target as is, a relative one appended to the current path. */
  function Combine(current: string, target: string): string
  {
    if |target| > 0 && target[0] == '/' then target
    else if current == "/" then "/" + target
    else current + "/" + target
  }

  /** `'/' + '/'.join(parts) if parts else '/'`. */
  function Render(stack: seq<string>): string
  {
    if stack == [] then "/" else "/" + Join(stack, '/')
  }

  /** What `_normalize_path(target)` returns when `current_path` is `current`. */
  function Normalize(current: string, target: string): string
  {
    Render(Steps([], Split(Combine(current, target), '/')))
  }

  /** Absolute, no empty, `.` or `..` segment, no trailing separator except the root itself. */
  predicate IsCanonical(p: string)
  {
    |p| > 0 && p[0] == '/' && (p == "/" || forall seg | seg in Split(p[1..], '/') :: IsSegment(seg))
  }

  /** `[p for p in parts if p]`. */
  function NonEmpty(parts: seq<string>): (r: seq<string>)
    ensures forall i :: 0 <= i < |r| ==> r[i] != ""
    ensures forall x :: x in r ==> x in parts
    ensures forall x :: x in parts && x != "" ==> x in r
    decreases |parts|
  {
    if parts == [] then []
    else (if parts[0] == "" then [] else [parts[0]]) + NonEmpty(parts[1..])
  }

  /** The filter keeps order: filtering a concatenation concatenates the filtered halves. */
  lemma {:induction false} NonEmptyAppend(a: seq<string>, b: seq<string>)
    ensures NonEmpty(a + b) == NonEmpty(a) + NonEmpty(b)
    decreases |a|
  {
    if a == [] {
      assert a + b == b;
    } else {
      assert (a + b)[1..] == a[1..] + b;
      NonEmptyAppend(a[1..], b);
    }
  }

  /** The prompt's rendering of the current path: `~` for the root, otherwise `~/` and the last segment. */
  function DisplayPath(current: string): string
  {
    if current == "/" then "~"
    else
      var parts := NonEmpty(Split(current, '/'));
      if parts == [] then "~" else "~/" + parts[|parts| - 1]
  }

  lemma {:induction false} StepsAppend(stack: seq<string>, a: seq<string>, b: seq<string>)
    ensures Steps(stack, a + b) == Steps(Steps(stack, a), b)
    decreases |a|
  {
    if a == [] {
      assert a + b == b;
    } else {
      assert (a + b)[1..] == a[1..] + b;
      StepsAppend(Step(stack, a[0]), a[1..], b);
    }
  }

  /** Segments that are plain names are pushed unchanged. */
  lemma {:induction false} StepsPush(stack: seq<string>, segs: seq<string>)
    requires Segments(segs)
    ensures Steps(stack, segs) == stack + segs
    decreases |segs|
  {
    if segs != [] {
      StepsPush(stack + [segs[0]], segs[1..]);
      assert stack + [segs[0]] + segs[1..] == stack + segs;
    }
  }

  /** The stack only ever holds plain segments. */
  lemma {:induction false} StepsKeepSegments(stack: seq<string>, segs: seq<string>)
    requires Segments(stack)
    requires forall i :: 0 <= i < |segs| ==> '/' !in segs[i]
    ensures Segments(Steps(stack, segs))
    decreases |segs|
  {
    if segs != [] {
      StepsKeepSegments(Step(stack, segs[0]), segs[1..]);
    }
  }

  lemma {:induction false} JoinNotEmpty(segs: seq<string>)
    requires |segs| >= 1 && segs[0] != ""
    ensures |Join(segs, '/')| > 0
  {
  }

  /** The split of a rendered path is an empty piece followed by its segments. */
  lemma {:induction false} SplitRender(segs: seq<string>)
    requires Named(segs)
    ensures Split(Render(segs), '/') == (if segs == [] then ["", ""] else [""] + segs)
  {
    if segs == [] {
      assert Render(segs) == [] + ['/'] + [];
      SplitAppend([], [], '/');
    } else {
      assert Render(segs) == [] + ['/'] + Join(segs, '/');
      SplitAppend([], Join(segs, '/'), '/');
      SplitJoin(segs, '/');
    }
  }

  /** `get_node`'s segment list of a rendered path is the segment list itself. */
  lemma {:induction false} NonEmptyOfRender(segs: seq<string>)
    requires Named(segs)
    ensures NonEmpty(Split(Render(segs), '/')) == segs
  {
    SplitRender(segs);
    if segs == [] {
      assert ["", ""][1..] == [""] && [""][1..] == [];
    } else {
      assert ([""] + segs)[1..] == segs;
      NonEmptyKeeps(segs);
    }
  }

  lemma {:induction false} NonEmptyKeeps(segs: seq<string>)
    requires Named(segs)
    ensures NonEmpty(segs) == segs
    decreases |segs|
  {
    if segs != [] {
      NonEmptyKeeps(segs[1..]);
      assert segs == [segs[0]] + segs[1..];
    }
  }

  /** A rendered path ends in a separator only when it is the root. */
  lemma {:induction false} RenderLast(segs: seq<string>)
    requires Named(segs) && segs != []
    ensures |Render(segs)| >= 2
    ensures Render(segs)[|Render(segs)| - 1] == segs[|segs| - 1][|segs[|segs| - 1]| - 1]
  {
    var n := |segs|;
    if n == 1 {
    } else {
      JoinAppend(segs[..n - 1], segs[n - 1], '/');
      assert segs[..n - 1] + [segs[n - 1]] == segs;
    }
  }

  /** Rendering plain segments gives a canonical path. */
  lemma {:induction false} RenderIsCanonical(segs: seq<string>)
    requires Segments(segs)
    ensures IsCanonical(Render(segs))
  {
    if segs != [] {
      var p := Render(segs);
      assert p[1..] == Join(segs, '/');
      SplitJoin(segs, '/');
    }
  }

  /** A canonical path is the rendering of the segments after its leading separator. */
  lemma {:induction false} CanonicalIsRender(p: string)
    requires IsCanonical(p)
    ensures p != "/" ==> Segments(Split(p[1..], '/')) && Render(Split(p[1..], '/')) == p
  {
    if p != "/" {
      JoinSplit(p[1..], '/');
      assert p == "/" + p[1..];
    }
  }

  /** `_normalize_path` always yields a canonical path (shell4.py:231-242). */
  lemma {:induction false} NormalizeIsCanonical(current: string, target: string)
    ensures IsCanonical(Normalize(current, target))
  {
    StepsKeepSegments([], Split(Combine(current, target), '/'));
    RenderIsCanonical(Steps([], Split(Combine(current, target), '/')));
  }

  /**
   * Resolution starts from the root for an absolute target and from the
   * current path's segments for a relative one; at the root a relative
   * target gets one leading separator, never two (shell4.py:220-242).
   */
  lemma {:induction false} NormalizeStartsFrom(segs: seq<string>, target: string)
    requires Segments(segs)
    ensures |target| > 0 && target[0] == '/' ==> Normalize(Render(segs), target) == Render(Steps([], Split(target, '/')))
    ensures !(|target| > 0 && target[0] == '/') ==> Normalize(Render(segs), target) == Render(Steps(segs, Split(target, '/')))
  {
    if !(|target| > 0 && target[0] == '/') {
      var current := Render(segs);
      if segs == [] {
        assert Combine(current, target) == [] + ['/'] + target;
        SplitAppend([], target, '/');
        assert Split(Combine(current, target), '/') == [""] + Split(target, '/');
      } else {
        JoinNotEmpty(segs);
        assert current != "/";
        assert Combine(current, target) == current + ['/'] + target;
        SplitAppend(current, target, '/');
        SplitRender(segs);
        StepsAppend([], [""] + segs, Split(target, '/'));
        assert ([""] + segs)[1..] == segs;
        StepsPush([], segs);
        assert [] + segs == segs;
      }
    }
  }

  /** A plain relative name descends one level from a canonical path. */
  lemma NormalizeChild(segs: seq<string>, k: string)
    requires Segments(segs) && IsSegment(k)
    ensures Normalize(Render(segs), k) == Render(segs + [k])
  {
    NormalizeStartsFrom(segs, k);
    SplitWithoutSep(k, '/');
    assert Steps(segs, [k]) == Steps(segs + [k], []);
  }

  /** `..` drops the last segment and does nothing at the root: depth never goes negative (shell4.py:236-238). */
  lemma {:induction false} NormalizeParent(segs: seq<string>)
    requires Segments(segs)
    ensures Normalize(Render(segs), "..") == Render(if segs == [] then [] else segs[..|segs| - 1])
  {
    NormalizeStartsFrom(segs, "..");
    SplitWithoutSep("..", '/');
  }

  lemma RootParent()
    ensures Normalize("/", "..") == "/"
  {
    NormalizeParent([]);
  }

  /** A canonical target comes back unchanged, whatever the current path. */
  lemma {:induction false} NormalizeFixesCanonical(current: string, p: string)
    requires IsCanonical(p)
    ensures Normalize(current, p) == p
  {
    assert Combine(current, p) == p;
    assert p == [] + ['/'] + p[1..];
    SplitAppend([], p[1..], '/');
    var rest := Split(p[1..], '/');
    assert ([""] + rest)[1..] == rest;
    if p == "/" {
      assert rest == [""] && [""][1..] == [];
      assert Split(p, '/') == ["", ""];
      assert Steps([], ["", ""]) == Steps([], [""]) == Steps([], []) == [];
    } else {
      CanonicalIsRender(p);
      StepsPush([], rest);
      assert [] + rest == rest;
    }
  }

  /** Normalising is idempotent. */
  lemma {:induction false} NormalizeIdempotent(current: string, other: string, target: string)
    ensures Normalize(other, Normalize(current, target)) == Normalize(current, target)
  {
    NormalizeIsCanonical(current, target);
    NormalizeFixesCanonical(other, Normalize(current, target));
  }

  /** `.` from a canonical path stays there. */
  lemma {:induction false} NormalizeDot(p: string)
    requires IsCanonical(p)
    ensures Normalize(p, ".") == p
  {
    if p == "/" {
      assert Combine(p, ".") == [] + ['/'] + ".";
      SplitAppend([], ".", '/');
      SplitWithoutSep(".", '/');
      assert ["", "."][1..] == ["."] && ["."][1..] == [];
      assert Split(Combine(p, "."), '/') == ["", "."];
      assert Steps([], ["", "."]) == Steps([], ["."]) == Steps([], []) == [];
    } else {
      assert Combine(p, ".") == p + ['/'] + ".";
      SplitAppend(p, ".", '/');
      SplitWithoutSep(".", '/');
      StepsAppend([], Split(p, '/'), ["."]);
      assert Normalize(p, ".") == Render(Steps([], Split(p, '/')));
      NormalizeFixesCanonical(p, p);
      assert Combine(p, p) == p;
    }
  }

  /** The prompt shows `~` at the root and `~/` with the last segment elsewhere (shell4.py:213-218). */
  lemma {:induction false} DisplayOfRender(segs: seq<string>)
    requires Named(segs)
    ensures DisplayPath(Render(segs)) == if segs == [] then "~" else "~/" + segs[|segs| - 1]
  {
    if segs != [] {
      JoinNotEmpty(segs);
      NonEmptyOfRender(segs);
    }
  }

  lemma DisplayWhenCanonical(p: string)
    ensures IsCanonical(p) && p != "/" ==> var segs := Split(p[1..], '/'); DisplayPath(p) == "~/" + segs[|segs| - 1]
  {
    if IsCanonical(p) && p != "/" {
      DisplayOfCanonical(p);
    }
  }

  /** Away from the root the prompt shows `~/` and the last segment of the current path. */
  lemma DisplayOfCanonical(p: string)
    requires IsCanonical(p) && p != "/"
    ensures var segs := Split(p[1..], '/'); DisplayPath(p) == "~/" + segs[|segs| - 1]
  {
    CanonicalIsRender(p);
    var segs := Split(p[1..], '/');
    assert Named(segs);
    DisplayOfRender(segs);
  }
}

=== FILE: scenario.dfy ===
/**
 * A small session on a concrete document: a folder `docs` holding
 * `readme.txt`, walked with `cd`, `ls` and `uniq`; and two same-named
 * siblings, of which the later one is kept.
 */
module Scenario {
  import opened Wrappers
  import opened Text
  import opened Paths
  import opened Vfs
  import opened Commands
  import opened Shell

  /** A text file `readme.txt` whose content is `hi`, in a folder `docs`. */
  const Readme := Element("file", Some("readme.txt"), Some("text"), Some("hi"), [])
  const Docs := Element("folder", Some("docs"), None, None, [Readme])
  const ReadmeNode := File("readme.txt", Render(["docs", "readme.txt"]), "hi", "text")
  const DocsNode := Folder("docs", Render(["docs"]), map["readme.txt" := ReadmeNode])

  /** The tree loaded from a document holding just `Docs`. */
  function DocsRoot(decode: Decoder): Node
  {
    Folder("", "/", Build([Docs], "/", decode))
  }

  lemma PlainExampleNames()
    ensures PlainNames(["docs"]) && PlainName("docs") && PlainName("readme.txt")
  {
  }

  lemma ReadmeEntry(decode: Decoder)
    ensures Build([Readme], Render(["docs"]), decode) == map["readme.txt" := ReadmeNode]
  {
    PlainExampleNames();
    JoinPathRender(["docs"], "readme.txt");
    assert Entry(Readme, Render(["docs"]), decode) == ReadmeNode;
    assert [Readme][..0] == [];
  }

  lemma DocsRootShape(decode: Decoder)
    ensures Build([Docs], "/", decode) == map["docs" := DocsNode]
  {
    ReadmeEntry(decode);
    PlainExampleNames();
    JoinPathRender([], "docs");
    assert Render([]) == "/" && [] + ["docs"] == ["docs"];
    assert [Docs][..0] == [];
  }

  lemma NormalizeDocs()
    ensures Normalize("/", "docs") == "/docs"
    ensures NonEmpty(Split("/docs", '/')) == ["docs"]
  {
    NormalizeStartsFrom([], "docs");
    SplitWithoutSep("docs", '/');
    assert Steps([], ["docs"]) == ["docs"];
    assert Render(["docs"]) == "/docs";
    NonEmptyOfRender(["docs"]);
  }

  lemma NormalizeDocsParent()
    ensures Normalize("/docs", "..") == "/"
  {
    assert Render(["docs"]) == "/docs";
    NormalizeParent(["docs"]);
  }

  lemma NormalizeReadme()
    ensures Normalize("/docs", "readme.txt") == Render(["docs", "readme.txt"])
  {
    assert Render(["docs"]) == "/docs";
    NormalizeChild(["docs"], "readme.txt");
    assert ["docs"] + ["readme.txt"] == ["docs", "readme.txt"];
  }

  /** `cd docs` at the root moves to `/docs`. */
  lemma CdIntoDocs(decode: Decoder, status: Status, next: string, lines: seq<string>)
    requires CdSpec(DocsRoot(decode), true, "/", ["docs"], status, next, lines)
    ensures status == Success && next == "/docs" && lines == []
  {
    DocsRootShape(decode);
    NormalizeDocs();
  }

  /** `ls` in `/docs` lists `readme.txt`. */
  lemma LsInDocs(decode: Decoder, status: Status, lines: seq<string>)
    requires LsSpec(DocsRoot(decode), true, "/docs", [], status, lines)
    ensures status == Success && lines == ["readme.txt"]
  {
    DocsRootShape(decode);
    NormalizeDocs();
    var root := DocsRoot(decode);
    assert root.children == map["docs" := DocsNode];
    assert ["docs"][0] == "docs" && ["docs"][1..] == [];
    assert Descend(root, ["docs"]) == Descend(DocsNode, []);
    assert Resolve(root, "/docs") == Found(DocsNode);
    assert DocsNode.children.Keys == {"readme.txt"};
    assert IsListing(lines, {"readme.txt"});
    assert IsListing(["readme.txt"], {"readme.txt"});
    ListingUnique(lines, ["readme.txt"], {"readme.txt"});
  }

  /** `cd ..` in `/docs` goes back to the root. */
  lemma CdOutOfDocs(decode: Decoder, status: Status, next: string, lines: seq<string>)
    requires CdSpec(DocsRoot(decode), true, "/docs", [".."], status, next, lines)
    ensures status == Success && next == "/" && lines == []
  {
    NormalizeDocsParent();
  }

  lemma ResolveReadme(decode: Decoder)
    ensures Resolve(DocsRoot(decode), Render(["docs", "readme.txt"])) == Found(ReadmeNode)
  {
    var root := DocsRoot(decode);
    DocsRootShape(decode);
    var segs := ["docs", "readme.txt"];
    assert segs[0] == "docs" && segs[1..] == ["readme.txt"];
    assert ["readme.txt"][0] == "readme.txt" && ["readme.txt"][1..] == [];
    assert Descend(root, segs) == Found(ReadmeNode);
    assert PlainNames(segs);
    ResolveOwnPath([Docs], decode, segs, ReadmeNode);
  }

  /** `uniq readme.txt` in `/docs` prints `hi`. */
  lemma UniqInDocs(decode: Decoder, status: Status, lines: seq<string>)
    requires UniqSpec(DocsRoot(decode), true, "/docs", ["readme.txt"], status, lines)
    ensures status == Success && lines == ["hi"]
  {
    NormalizeReadme();
    ResolveReadme(decode);
    SplitWithoutSep("hi", '\n');
    assert lines == Collapse(["hi"]);
  }

  const First := Element("file", Some("a"), None, Some("1"), [])
  const Second := Element("file", Some("a"), None, Some("2"), [])

  /** Of two siblings named `a`, the later one is the child. */
  lemma LaterSiblingWins(decode: Decoder)
    ensures Build([First, Second], "/", decode) == map["a" := File("a", "/a", "2", "text")]
  {
    assert Slashes("/a") == "/a";
    assert [First, Second][..1] == [First] && [First][..0] == [];
    assert Entry(Second, "/", decode) == File("a", "/a", "2", "text");
    assert IsEntry(First) && NameOf(First) == "a" && IsEntry(Second) && NameOf(Second) == "a";
    assert Build([], "/", decode) == map[];
    var earlier := Build([First], "/", decode);
    assert earlier == map["a" := Entry(First, "/", decode)];
    assert Build([First, Second], "/", decode) == earlier["a" := Entry(Second, "/", decode)];
  }
}

=== FILE: shell.dfy ===
/**
 * The session of shell4.py's `ComLineEm`: the current path, the commands
 * that read the tree (`ls`, `uniq`), the one that moves (`cd`), and
 * `execute_command`, which dispatches a tokenised line and maps the
 * outcome to a return code. Printed lines are returned instead.
 */
module Shell {
  import opened Wrappers
  import opened Text
  import opened Paths
  import opened Vfs
  import opened Commands
  import Draft

  /** The lines `help` prints. */
  const HelpLines: seq<string> := [
    " Доступные команды",
    "  ls [путь] - показать содержимое директории",
    "  cd [путь] - сменить директорию",
    "  cal [год] или cal [месяц] [год] - вывод календаря",
    "  uniq [файл] - фильтрация повторяющихся строк",
    "  uname - информация о системе",
    "  vfs-info - информация о загруженной VFS",
    "  exit - выход из эмулятора",
    "  help - показать эту справку"
  ]

  /** The lines `vfs_info` prints. */
  function VfsInfoLines(info: Info, args: seq<string>): seq<string>
  {
    if args != [] then [VfsInfoTakesNoArgs]
    else if info.loaded then ["VFS name: " + info.name, "SHA-256: " + info.sha256]
    else [VfsNotLoadedNotice]
  }

  /** The folder or file a walk ends at, or the failure of the walk, as `ls` and `cd` report it. */
  ghost predicate FolderCheck(walk: Walk, target: string, status: Status, lines: seq<string>)
  {
    match walk
    case ThroughFile => status == Crash && lines == []
    case Missing => status == Failure && lines == [NoSuchPath + target]
    case Found(node) => node.File? ==> status == Failure && lines == [NotADirectory + target]
  }

  /** What `ls args` does in a session at `current`. */
  ghost predicate LsSpec(root: Node, loaded: bool, current: string, args: seq<string>, status: Status, lines: seq<string>)
  {
    if !loaded then status == Failure && lines == [NotLoaded]
    else if |args| > 1 then status == Failure && lines == [TooManyArgs]
    else
      var target := if args == [] then current else Normalize(current, args[0]);
      var walk := Resolve(root, target);
      FolderCheck(walk, target, status, lines) &&
      (walk.Found? && walk.node.Folder? ==> status == Success && IsListing(lines, walk.node.children.Keys))
  }

  /** What `cd args` does in a session at `current`; `next` is the current path afterwards. */
  ghost predicate CdSpec(root: Node, loaded: bool, current: string, args: seq<string>, status: Status, next: string, lines: seq<string>)
  {
    if !loaded then status == Failure && next == current && lines == [NotLoaded]
    else if args == [] then status == Success && next == "/" && lines == []
    else if |args| > 1 then status == Failure && next == current && lines == [TooManyArgs]
    else
      var target := Normalize(current, args[0]);
      var walk := Resolve(root, target);
      FolderCheck(walk, target, status, lines) &&
      (if walk.Found? && walk.node.Folder? then status == Success && next == target && lines == []
       else next == current)
  }

  /** What `uniq args` does in a session at `current`. */
  ghost predicate UniqSpec(root: Node, loaded: bool, current: string, args: seq<string>, status: Status, lines: seq<string>)
  {
    if args == [] then status == Failure && lines == [NoFileGiven]
    else if |args| > 1 then status == Failure && lines == [TooManyArgs]
    else if !loaded then status == Failure && lines == [NotLoaded]
    else
      var path := Normalize(current, args[0]);
      match Resolve(root, path)
      case ThroughFile => status == Crash && lines == []
      case Found(File(_, _, content, _)) => status == Success && lines == Collapse(Split(content, '\n'))
      case _ => status == Failure && lines == [CannotRead + path]
  }

  /** What `cal args` returns and prints, the calendar itself aside. */
  ghost predicate CalSpec(args: seq<string>, status: Status, lines: seq<string>)
  {
    match Cal(args)
    case CalError(errors) => status == Failure && lines == errors
    case _ => status == Success && lines == []
  }

  /** What `execute_command` does with the outcome of `shlex.split` on the input line. */
  ghost predicate ExecuteSpec(root: Node, info: Info, current: string, parsed: Result<seq<string>, string>, fromScript: bool,
                              status: Status, next: string, lines: seq<string>)
  {
    match parsed
    case Err(message) => status == Failure && next == current && lines == [ParseErrorPrefix + message]
    case Ok(tokens) =>
      if tokens == [] then status == Crash && next == current && lines == []
      else
        var command := tokens[0];
        var args := tokens[1..];
        if command == "cd" then CdSpec(root, info.loaded, current, args, status, next, lines)
        else
          next == current &&
          if command == "exit" then
            if args == [] then status == Exit && lines == [] else status == Success && lines == [ExitTakesNoArgs]
          else if command == "ls" then LsSpec(root, info.loaded, current, args, status, lines)
          else if command == "help" then status == Success && lines == HelpLines
          else if command == "vfs-info" then status == Success && lines == VfsInfoLines(info, args)
          else if command == "cal" then CalSpec(args, status, lines)
          else if command == "uniq" then UniqSpec(root, info.loaded, current, args, status, lines)
          else if command == "uname" then status == Success && lines == []
          else status == (if fromScript then Failure else Success) && lines == [UnknownCommand(command)]
  }

  /** `cd` only ever moves to a canonical path naming a folder, and a failed `cd` does not move. */
  lemma {:induction false} CdLandsOnFolder(root: Node, loaded: bool, current: string, args: seq<string>, status: Status, next: string, lines: seq<string>)
    requires root.Folder?
    requires CdSpec(root, loaded, current, args, status, next, lines)
    ensures status != Success ==> next == current
    ensures status == Success ==> IsCanonical(next) && Resolve(root, next).Found? && Resolve(root, next).node.Folder?
    ensures status == Success && args == [] ==> next == "/"
    ensures status == Success && args != [] ==> next == Normalize(current, args[0])
  {
    if loaded && |args| == 1 {
      NormalizeIsCanonical(current, args[0]);
    }
  }

  /** `None` comes back for a bare `exit` and for nothing else. */
  lemma {:induction false} ExitOnlyWhenBare(root: Node, info: Info, current: string, parsed: Result<seq<string>, string>, fromScript: bool,
                                            status: Status, next: string, lines: seq<string>)
    requires ExecuteSpec(root, info, current, parsed, fromScript, status, next, lines)
    ensures status == Exit <==> parsed == Ok(["exit"])
  {
    if parsed.Ok? && |parsed.value| == 1 && parsed.value[0] == "exit" {
      assert parsed.value == ["exit"];
      assert parsed.value[1..] == [];
    }
  }

  /** Only `cd` moves the session. */
  lemma {:induction false} OnlyCdMoves(root: Node, info: Info, current: string, parsed: Result<seq<string>, string>, fromScript: bool,
                                       status: Status, next: string, lines: seq<string>)
    requires ExecuteSpec(root, info, current, parsed, fromScript, status, next, lines)
    requires next != current
    ensures parsed.Ok? && |parsed.value| >= 1 && parsed.value[0] == "cd" && status == Success
  {
  }

  /** For the commands the two drafts share the exit, parse-error and unknown-command rules agree (shell3.py against shell4.py). */
  lemma {:induction false} AgreesWithDraft(root: Node, info: Info, current: string, parsed: Result<seq<string>, string>, fromScript: bool,
                                           status: Status, next: string, lines: seq<string>)
    requires ExecuteSpec(root, info, current, parsed, fromScript, status, next, lines)
    requires parsed.Ok? && parsed.value != [] ==> parsed.value[0] in {"exit", "help", "vfs-info"} || parsed.value[0] !in KnownCommands
    ensures status == Draft.Dispatch(parsed, fromScript)
  {
    ExitOnlyWhenBare(root, info, current, parsed, fromScript, status, next, lines);
  }

  class Shell {
    /** `current_path`: where relative paths start. */
    var currentPath: string
    const vfs: FileSystem

    /** The current path is canonical and names a folder of the tree. */
    ghost predicate Valid()
      reads this, vfs
    {
      IsCanonical(currentPath) && Resolve(vfs.root, currentPath).Found? && Resolve(vfs.root, currentPath).node.Folder?
    }

    /** `ComLineEm.__init__` once the tree is loaded: the session starts at the root. */
    constructor (vfs: FileSystem)
      ensures this.vfs == vfs && currentPath == "/"
      ensures Valid()
    {
      this.vfs := vfs;
      currentPath := "/";
    }

    /** `_get_display_path`. */
    function DisplayedPath(): (r: string)
      reads this
      ensures currentPath == "/" ==> r == "~"
      ensures IsCanonical(currentPath) && currentPath != "/" ==>
        var segs := Split(currentPath[1..], '/'); r == "~/" + segs[|segs| - 1]
    {
      DisplayWhenCanonical(currentPath); // the non-root case of the prompt
      DisplayPath(currentPath)
    }

    /** `_normalize_path`: the segments pushed and popped one at a time. */
    method NormalizePath(target: string) returns (path: string)
      ensures path == Normalize(currentPath, target)
      ensures IsCanonical(path)
    {
      var combined: string;
      if |target| > 0 && target[0] == '/' {
        combined := target;
      } else if currentPath == "/" {
        combined := "/" + target;
      } else {
        combined := currentPath + "/" + target;
      }
      var segs := Split(combined, '/');
      var parts: seq<string> := [];
      for i := 0 to |segs|
        invariant Steps(parts, segs[i..]) == Steps([], segs)
      {
        assert segs[i..][0] == segs[i] && segs[i..][1..] == segs[i + 1..];
        var part := segs[i];
        if part == "" || part == "." {
        } else if part == ".." {
          if parts != [] {
            parts := parts[..|parts| - 1];
          }
        } else {
          parts := parts + [part];
        }
      }
      path := if parts != [] then "/" + Join(parts, '/') else "/";
      NormalizeIsCanonical(currentPath, target);
    }

    /** `ls`: list a folder's names in sorted order. */
    method Ls(args: seq<string>) returns (status: Status, lines: seq<string>)
      ensures LsSpec(vfs.root, vfs.GetInfo().loaded, currentPath, args, status, lines)
      ensures status == Success || status == Failure || status == Crash
    {
      if !vfs.GetInfo().loaded {
        return Failure, [NotLoaded];
      }
      var target: string;
      if args != [] {
        if |args| > 1 {
          return Failure, [TooManyArgs];
        }
        target := NormalizePath(args[0]);
      } else {
        target := currentPath;
      }
      var walk := vfs.GetNode(target);
      if walk.ThroughFile? {
        return Crash, [];
      } else if walk.Missing? {
        return Failure, [NoSuchPath + target];
      } else if walk.node.File? {
        return Failure, [NotADirectory + target];
      }
      var names := walk.node.children.Keys;
      if names == {} {
        lines := [EmptyFolder];
      } else {
        lines := SortedNames(names);
      }
      status := Success;
    }

    /** `cd`: move to a folder, or to the root with no argument. */
    method Cd(args: seq<string>) returns (status: Status, lines: seq<string>)
      requires Valid()
      modifies this
      ensures Valid()
      ensures CdSpec(vfs.root, vfs.GetInfo().loaded, old(currentPath), args, status, currentPath, lines)
    {
      if !vfs.GetInfo().loaded {
        return Failure, [NotLoaded];
      }
      if args == [] {
        currentPath := "/";
        return Success, [];
      }
      if |args| > 1 {
        return Failure, [TooManyArgs];
      }
      var target := NormalizePath(args[0]);
      var walk := vfs.GetNode(target);
      if walk.ThroughFile? {
        return Crash, [];
      } else if walk.Missing? {
        return Failure, [NoSuchPath + target];
      } else if walk.node.File? {
        return Failure, [NotADirectory + target];
      }
      currentPath := target;
      return Success, [];
    }

    /** `uniq`: the file's lines with adjacent repeats dropped. */
    method Uniq(args: seq<string>) returns (status: Status, lines: seq<string>)
      ensures UniqSpec(vfs.root, vfs.GetInfo().loaded, currentPath, args, status, lines)
      ensures status == Success ==> NoAdjacentRepeats(lines)
    {
      if args == [] {
        return Failure, [NoFileGiven];
      }
      if |args| > 1 {
        return Failure, [TooManyArgs];
      }
      var filePath := NormalizePath(args[0]);
      if !vfs.GetInfo().loaded {
        return Failure, [NotLoaded];
      }
      var content := vfs.ReadFile(filePath);
      if content.Err? {
        return Crash, [];
      }
      if content.value.None? {
        return Failure, [CannotRead + filePath];
      }
      var unique := UniqLines(Split(content.value.value, '\n'));
      return Success, unique;
    }

    /** `execute_command` on the outcome of `shlex.split`: the return code and the lines printed. */
    method ExecuteCommand(parsed: Result<seq<string>, string>, fromScript: bool) returns (status: Status, lines: seq<string>)
      requires Valid()
      modifies this
      ensures Valid()
      ensures ExecuteSpec(vfs.root, vfs.GetInfo(), old(currentPath), parsed, fromScript, status, currentPath, lines)
    {
      if parsed.Err? {
        return Failure, [ParseErrorPrefix + parsed.error];
      }
      var tokens := parsed.value;
      if tokens == [] {
        return Crash, [];
      }
      var command := tokens[0];
      var args := tokens[1..];
      if command == "exit" {
        if args == [] {
          return Exit, [];
        }
        lines := [ExitTakesNoArgs];
      } else if command == "ls" {
        status, lines := Ls(args);
        return;
      } else if command == "cd" {
        status, lines := Cd(args);
        return;
      } else if command == "help" {
        lines := HelpLines;
      } else if command == "vfs-info" {
        lines := VfsInfoLines(vfs.GetInfo(), args);
      } else if command == "cal" {
        var plan := Cal(args);
        if plan.CalError? {
          return Failure, plan.lines;
        }
        return Success, [];
      } else if command == "uniq" {
        status, lines := Uniq(args);
        return;
      } else if command == "uname" {
        lines := [];
      } else {
        lines := [UnknownCommand(command)];
        if fromScript {
          return Failure, lines;
        }
      }
      status := Success;
    }
  }
}

=== FILE: text.dfy ===
/**
 * Python's string primitives that the shell relies on: `str.split` with a
 * one-character separator, `str.join`, and the code-point order that
 * `sorted` uses on strings.
 */
module Text {

  /** `s.split(sep)`: the pieces between separators, never an empty list. */
  function Split(s: string, sep: char): (r: seq<string>)
    ensures |r| >= 1
    ensures forall i :: 0 <= i < |r| ==> sep !in r[i]
    decreases |s|
  {
    if s == [] then [""]
    else
      var rest := Split(s[1..], sep);
      if s[0] == sep then [""] + rest
      else [[s[0]] + rest[0]] + rest[1..]
  }

  /** `sep.join(parts)`. */
  function Join(parts: seq<string>, sep: char): string
    decreases |parts|
  {
    if |parts| == 0 then ""
    else if |parts| == 1 then parts[0]
    else parts[0] + [sep] + Join(parts[1..], sep)
  }

  lemma {:induction false} JoinPrepend(x: string, parts: seq<string>, sep: char)
    requires |parts| >= 1
    ensures Join([x + parts[0]] + parts[1..], sep) == x + Join(parts, sep)
  {
    var ps := [x + parts[0]] + parts[1..];
    if |parts| > 1 {
      assert ps[1..] == parts[1..];
    }
  }

  /** Joining the pieces of a split gives back the string. */
  lemma {:induction false} JoinSplit(s: string, sep: char)
    ensures Join(Split(s, sep), sep) == s
    decreases |s|
  {
    if s != [] {
      JoinSplit(s[1..], sep);
      var rest := Split(s[1..], sep);
      if s[0] == sep {
        assert ([""] + rest)[1..] == rest;
      } else {
        JoinPrepend([s[0]], rest, sep);
      }
      assert s == [s[0]] + s[1..];
    }
  }

  /** Splitting at one separator splits the two sides independently. */
  lemma {:induction false} SplitAppend(a: string, b: string, sep: char)
    ensures Split(a + [sep] + b, sep) == Split(a, sep) + Split(b, sep)
    decreases |a|
  {
    if a == [] {
      assert a + [sep] + b == [sep] + b;
      assert ([sep] + b)[1..] == b;
    } else {
      var s := a + [sep] + b;
      assert s[0] == a[0] && s[1..] == a[1..] + [sep] + b;
      SplitAppend(a[1..], b, sep);
    }
  }

  lemma {:induction false} SplitWithoutSep(p: string, sep: char)
    requires sep !in p
    ensures Split(p, sep) == [p]
    decreases |p|
  {
    if p != [] {
      SplitWithoutSep(p[1..], sep);
      assert p == [p[0]] + p[1..];
    }
  }

  /** Splitting a join of separator-free pieces gives back the pieces. */
  lemma {:induction false} SplitJoin(parts: seq<string>, sep: char)
    requires |parts| >= 1
    requires forall i :: 0 <= i < |parts| ==> sep !in parts[i]
    ensures Split(Join(parts, sep), sep) == parts
    decreases |parts|
  {
    if |parts| == 1 {
      SplitWithoutSep(parts[0], sep);
    } else {
      SplitJoin(parts[1..], sep);
      SplitAppend(parts[0], Join(parts[1..], sep), sep);
      SplitWithoutSep(parts[0], sep);
      assert parts == [parts[0]] + parts[1..];
    }
  }

  lemma {:induction false} JoinAppend(parts: seq<string>, x: string, sep: char)
    requires |parts| >= 1
    ensures Join(parts + [x], sep) == Join(parts, sep) + [sep] + x
    decreases |parts|
  {
    if |parts| == 1 {
      assert (parts + [x])[1..] == [x];
    } else {
      assert (parts + [x])[1..] == parts[1..] + [x];
      JoinAppend(parts[1..], x, sep);
    }
  }

  /** A character other than the separator occurs in a join only if it occurs in a piece. */
  lemma {:induction false} JoinAvoids(parts: seq<string>, sep: char, c: char)
    requires c != sep
    requires forall i :: 0 <= i < |parts| ==> c !in parts[i]
    ensures c !in Join(parts, sep)
    decreases |parts|
  {
    if |parts| > 1 {
      JoinAvoids(parts[1..], sep, c);
    }
  }

  /** `a < b` on Python strings: lexicographic order of code points. */
  predicate Below(a: string, b: string)
    decreases |a|
  {
    if a == [] then b != []
    else b != [] && (a[0] < b[0] || (a[0] == b[0] && Below(a[1..], b[1..])))
  }

  lemma {:induction false} BelowIrreflexive(a: string)
    ensures !Below(a, a)
    decreases |a|
  {
    if a != [] {
      BelowIrreflexive(a[1..]);
    }
  }

  lemma {:induction false} BelowTransitive(a: string, b: string, c: string)
    requires Below(a, b) && Below(b, c)
    ensures Below(a, c)
    decreases |a|
  {
    if a != [] && a[0] == b[0] && b[0] == c[0] {
      BelowTransitive(a[1..], b[1..], c[1..]);
    }
  }

  /** Any two distinct strings are ordered one way or the other. */
  lemma {:induction false} BelowTotal(a: string, b: string)
    requires a != b
    ensures Below(a, b) || Below(b, a)
    decreases |a|
  {
    if a != [] && b != [] && a[0] == b[0] {
      assert a == [a[0]] + a[1..] && b == [b[0]] + b[1..];
      BelowTotal(a[1..], b[1..]);
    }
  }

  /** Every non-empty finite set of strings has a least element. */
  lemma {:induction false} LeastExists(names: set<string>)
    requires names != {}
    ensures exists m :: m in names && forall x :: x in names && x != m ==> Below(m, x)
    decreases |names|
  {
    var y :| y in names;
    var rest := names - {y};
    if rest == {} {
      assert names == {y};
    } else {
      LeastExists(rest);
      var m :| m in rest && forall x :: x in rest && x != m ==> Below(m, x);
      if Below(y, m) {
        forall x | x in names && x != y
          ensures Below(y, x)
        {
          if x != m { BelowTransitive(y, m, x); }
        }
      } else {
        BelowTotal(y, m);
        assert forall x :: x in names && x != m ==> Below(m, x);
      }
    }
  }

  /** In strictly increasing order, hence without repetitions. */
  predicate StrictlySorted(s: seq<string>)
  {
    forall i, j :: 0 <= i < j < |s| ==> Below(s[i], s[j])
  }

  /** There is one strictly increasing arrangement of a set of strings. */
  lemma {:induction false} SortedUnique(a: seq<string>, b: seq<string>)
    requires StrictlySorted(a) && StrictlySorted(b)
    requires forall x :: x in a <==> x in b
    ensures a == b
    decreases |a|
  {
    if a == [] {
      assert forall k :: 0 <= k < |b| ==> b[k] in a;
    } else {
      assert a[0] in b;
      assert b != [] && b[0] in b;
      if a[0] != b[0] {
        var i :| 0 <= i < |a| && a[i] == b[0];
        var j :| 0 <= j < |b| && b[j] == a[0];
        assert Below(a[0], b[0]) && Below(b[0], a[0]);
        BelowTransitive(a[0], b[0], a[0]);
        BelowIrreflexive(a[0]);
      }
      forall x
        ensures x in a[1..] <==> x in b[1..]
      {
        if x in a[1..] {
          var i :| 0 <= i < |a| - 1 && a[1..][i] == x;
          assert a[i + 1] == x;
          BelowIrreflexive(x);
          assert x in b;
          var j :| 0 <= j < |b| && b[j] == x;
          assert j != 0;
          assert b[1..][j - 1] == x;
        }
        if x in b[1..] {
          var j :| 0 <= j < |b| - 1 && b[1..][j] == x;
          assert b[j + 1] == x;
          BelowIrreflexive(x);
          assert x in a;
          var i :| 0 <= i < |a| && a[i] == x;
          assert i != 0;
          assert a[1..][i - 1] == x;
        }
      }
      SortedUnique(a[1..], b[1..]);
      assert a == [a[0]] + a[1..] && b == [b[0]] + b[1..];
    }
  }
}

=== FILE: vfs.dfy ===
/**
 * The virtual filesystem of shell4.py (`VFSFile`, `VFSFolder`,
 * `VirtualFileSystem`); shell3.py's loader is the same code.  The parsed
 * markup document comes in as an `Element` value; the tree is a closed
 * sum of files and folders.
 */
module Vfs {
  import opened Wrappers
  import opened Text
  import Paths

  /** A parsed markup element: its tag, its `name` and `encoding` attributes when present, its inner text and its child elements. */
  datatype Element = Element(tag: string, name: Option<string>, encoding: Option<string>, text: Option<string>, children: seq<Element>)

  /** `child.get('name', '')`. */
  function NameOf(e: Element): string
  {
    if e.name.Some? then e.name.value else ""
  }

  /** `child.get('encoding', 'text')`. */
  function EncodingOf(e: Element): string
  {
    if e.encoding.Some? then e.encoding.value else "text"
  }

  /** `child.text or ""`. */
  function RawText(e: Element): string
  {
    if e.text.Some? then e.text.value else ""
  }

  /** The two tags the loader recognises; every other element is skipped with its subtree. */
  predicate IsEntry(e: Element)
  {
    e.tag == "folder" || e.tag == "file"
  }

  datatype Node =
    | File(name: string, path: string, content: string, encoding: string)
    | Folder(name: string, path: string, children: map<string, Node>)
  {
    /** `VFSFile.size`: the length of the decoded content. */
    function Size(): nat
      requires File?
    {
      |content|
    }
  }

  type FolderNode = n: Node | n.Folder? witness Folder("", "/", map[])

  /** `VFSFolder("", "/")`. */
  const EmptyRoot: FolderNode := Folder("", "/", map[])

  /** `base64.b64decode(text).decode('utf-8')`, or None where it raises. */
  type Decoder = string -> Option<string>

  /** A SHA-256 digest written as `hexdigest()` writes it. */
  type HexDigest = s: string | |s| == 64 && forall i :: 0 <= i < |s| ==> ('0' <= s[i] <= '9' || 'a' <= s[i] <= 'f')
    witness seq(64, _ => '0')

  /** The exception `get_node` raises when a path continues through a file. */
  datatype Fault = AttributeError

  /** What `get_info()` returns. */
  datatype Info = Info(name: string, sha256: string, loaded: bool)

  /** `s.replace('\\', '/')`. */
  function Slashes(s: string): (r: string)
    ensures |r| == |s| && '\\' !in r
    ensures '\\' !in s ==> r == s
    ensures forall i :: 0 <= i < |s| ==> r[i] == if s[i] == '\\' then '/' else s[i]
  {
    seq(|s|, i requires 0 <= i < |s| => if s[i] == '\\' then '/' else s[i])
  }

  /** `os.path.join(parent, name).replace('\\', '/')` with POSIX `os.path`. */
  function JoinPath(parent: string, name: string): string
  {
    Slashes(
      if |name| > 0 && name[0] == '/' then name
      else if parent == "" || parent[|parent| - 1] == '/' then parent + name
      else parent + "/" + name)
  }

  /** A file's content: the text, base64-decoded when so tagged and non-empty, the raw text when decoding fails. */
  function FileContent(e: Element, decode: Decoder): (r: string)
    ensures RawText(e) == "" ==> r == ""
    ensures decode(RawText(e)).None? ==> r == RawText(e)
    ensures EncodingOf(e) == "base64" && RawText(e) != "" && decode(RawText(e)).Some? ==> r == decode(RawText(e)).value
    ensures r != RawText(e) ==> EncodingOf(e) == "base64" && decode(RawText(e)) == Some(r)
  {
    var content := RawText(e);
    if EncodingOf(e) == "base64" && content != "" then
      match decode(content)
      case Some(decoded) => decoded
      case None => content
    else content
  }

  /** The node `_parse_folder` creates for a `folder` or `file` element under the folder at `parentPath`. */
  function Entry(e: Element, parentPath: string, decode: Decoder): Node
    requires IsEntry(e)
    decreases e
  {
    var path := JoinPath(parentPath, NameOf(e));
    if e.tag == "folder" then Folder(NameOf(e), path, Build(e.children, path, decode))
    else File(NameOf(e), path, FileContent(e, decode), EncodingOf(e))
  }

  /** The `children` map `_parse_folder` fills for the folder at `path` from its child elements, in document order. */
  function Build(es: seq<Element>, path: string, decode: Decoder): map<string, Node>
    decreases es
  {
    if es == [] then map[]
    else
      var e := es[|es| - 1];
      var before := Build(es[..|es| - 1], path, decode);
      if IsEntry(e) then before[NameOf(e) := Entry(e, path, decode)] else before
  }

  /** The outcome of walking a path. */
  datatype Walk = Found(node: Node) | Missing | ThroughFile

  /** The walk of `get_node` from `n` along `parts`. */
  function Descend(n: Node, parts: seq<string>): Walk
    decreases |parts|
  {
    if parts == [] then Found(n)
    else match n
      case File(_, _, _, _) => ThroughFile
      case Folder(_, _, children) =>
        if parts[0] in children then Descend(children[parts[0]], parts[1..]) else Missing
  }

  /** What `get_node(path)` returns from `root`: the root for `/`, otherwise the walk along the non-empty segments. */
  function Resolve(root: Node, path: string): Walk
  {
    if path == "/" then Found(root) else Descend(root, Paths.NonEmpty(Split(path, '/')))
  }

  /** Every child is stored under its own name at the join of its parent's path and that name. */
  predicate WellPlaced(n: Node)
  {
    n.Folder? ==>
      forall k | k in n.children ::
        n.children[k].name == k && n.children[k].path == JoinPath(n.path, k) && WellPlaced(n.children[k])
  }

  /** A name `get_node` can address: non-empty, no `/`, and no `\\` for the join to rewrite. */
  predicate PlainName(k: string)
  {
    k != "" && '/' !in k && '\\' !in k
  }

  predicate PlainNames(segs: seq<string>)
  {
    forall k | k in segs :: PlainName(k)
  }

  /** The keys of a folder are the names of its `folder` and `file` child elements (shell4.py:64-85). */
  lemma {:induction false} BuildKeys(es: seq<Element>, path: string, decode: Decoder)
    ensures Build(es, path, decode).Keys == set i | 0 <= i < |es| && IsEntry(es[i]) :: NameOf(es[i])
    decreases |es|
  {
    if es != [] {
      var n := |es|;
      BuildKeys(es[..n - 1], path, decode);
      assert forall i :: 0 <= i < n - 1 ==> es[..n - 1][i] == es[i];
      var before := set i | 0 <= i < n - 1 && IsEntry(es[i]) :: NameOf(es[i]);
      var all := set i | 0 <= i < n && IsEntry(es[i]) :: NameOf(es[i]);
      if IsEntry(es[n - 1]) {
        assert all == before + {NameOf(es[n - 1])};
      } else {
        assert all == before;
      }
    }
  }

  /**
   * Last write wins: the entry stored under a name is the one made from the
   * last `folder` or `file` element carrying that name (shell4.py:69, shell4.py:85).
   */
  lemma {:induction false} BuildLastWins(es: seq<Element>, path: string, decode: Decoder, j: nat)
    requires j < |es| && IsEntry(es[j])
    requires forall i :: j < i < |es| && IsEntry(es[i]) ==> NameOf(es[i]) != NameOf(es[j])
    ensures NameOf(es[j]) in Build(es, path, decode)
    ensures Build(es, path, decode)[NameOf(es[j])] == Entry(es[j], path, decode)
    decreases |es|
  {
    var n := |es|;
    if j < n - 1 {
      BuildLastWins(es[..n - 1], path, decode, j);
    }
  }

  /** Every node the loader builds sits under its name at its parent's joined path, all the way down (shell3.py:67-91). */
  lemma {:induction false} BuildWellPlaced(es: seq<Element>, path: string, decode: Decoder)
    ensures forall k | k in Build(es, path, decode) ::
      Build(es, path, decode)[k].name == k &&
      Build(es, path, decode)[k].path == JoinPath(path, k) &&
      WellPlaced(Build(es, path, decode)[k])
    decreases es
  {
    if es != [] {
      var e := es[|es| - 1];
      BuildWellPlaced(es[..|es| - 1], path, decode);
      if IsEntry(e) {
        var node := Entry(e, path, decode);
        if e.tag == "folder" {
          BuildWellPlaced(e.children, JoinPath(path, NameOf(e)), decode);
          var p := JoinPath(path, NameOf(e));
          assert node == Folder(NameOf(e), p, Build(e.children, p, decode));
          assert WellPlaced(node);
        }
        assert node.name == NameOf(e) && node.path == JoinPath(path, NameOf(e)) && WellPlaced(node);
      }
    }
  }

  /** Plain names are segments a path can be rendered from. */
  lemma PlainNamesNamed(segs: seq<string>)
    requires PlainNames(segs)
    ensures Paths.Named(segs)
  {
    assert forall i :: 0 <= i < |segs| ==> segs[i] in segs;
  }

  /** Joining a plain name onto a path without backslashes is plain concatenation. */
  lemma JoinPathOnto(parent: string, k: string)
    requires PlainName(k) && '\\' !in parent && parent != ""
    ensures JoinPath(parent, k) == if parent[|parent| - 1] == '/' then parent + k else parent + "/" + k
  {
    assert k[0] in k;
  }

  /** A rendered list of plain names holds no backslash. */
  lemma RenderAvoidsBackslash(segs: seq<string>)
    requires PlainNames(segs)
    ensures '\\' !in Paths.Render(segs)
  {
    assert forall i :: 0 <= i < |segs| ==> segs[i] in segs;
    JoinAvoids(segs, '/', '\\');
  }

  lemma {:induction false} JoinPathRender(prefix: seq<string>, k: string)
    requires PlainNames(prefix) && PlainName(k)
    ensures JoinPath(Paths.Render(prefix), k) == Paths.Render(prefix + [k])
  {
    RenderAvoidsBackslash(prefix);
    JoinPathOnto(Paths.Render(prefix), k);
    if prefix == [] {
      assert prefix + [k] == [k];
    } else {
      var last := prefix[|prefix| - 1];
      assert last in prefix && last[|last| - 1] in last;
      PlainNamesNamed(prefix);
      Paths.RenderLast(prefix);
      JoinAppend(prefix, k, '/');
    }
  }

  /** The path reached from `start` by joining the names one at a time. */
  function PathAlong(start: string, segs: seq<string>): string
    decreases |segs|
  {
    if segs == [] then start else PathAlong(JoinPath(start, segs[0]), segs[1..])
  }

  /** In a well-placed tree, the walk along `segs` ends at the joined path. */
  lemma {:induction false} DescendAlong(m: Node, segs: seq<string>, n: Node)
    requires WellPlaced(m) && Descend(m, segs) == Found(n)
    ensures n.path == PathAlong(m.path, segs)
    decreases |segs|
  {
    if segs != [] {
      var k := segs[0];
      assert m.Folder? && k in m.children;
      var child := m.children[k];
      assert child.path == JoinPath(m.path, k) && WellPlaced(child);
      DescendAlong(child, segs[1..], n);
    }
  }

  /** The walk's last join comes last. */
  lemma {:induction false} PathAlongSnoc(start: string, init: seq<string>, k: string)
    ensures PathAlong(start, init + [k]) == JoinPath(PathAlong(start, init), k)
    decreases |init|
  {
    if init == [] {
      assert ([] + [k])[1..] == [];
    } else {
      assert (init + [k])[1..] == init[1..] + [k];
      PathAlongSnoc(JoinPath(start, init[0]), init[1..], k);
    }
  }

  /** Joining plain names one at a time onto the root renders them. */
  lemma {:induction false} AlongRender(segs: seq<string>)
    requires PlainNames(segs)
    ensures PathAlong("/", segs) == Paths.Render(segs)
    decreases |segs|
  {
    if segs != [] {
      var init, k := segs[..|segs| - 1], segs[|segs| - 1];
      assert segs == init + [k];
      assert PlainNames(init) && PlainName(k);
      AlongRender(init);
      PathAlongSnoc("/", init, k);
      JoinPathRender(init, k);
    }
  }

  /** In a well-placed tree hung at the root, a node reached by plain names has the path that renders them. */
  lemma DescendPath(m: Node, segs: seq<string>, n: Node)
    requires WellPlaced(m) && m.path == "/"
    requires PlainNames(segs)
    requires Descend(m, segs) == Found(n)
    ensures n.path == Paths.Render(segs)
  {
    DescendAlong(m, segs, n);
    AlongRender(segs);
  }

  /**
   * In a loaded tree, a node reached by plain names has the path that
   * renders those names, and `get_node` of that path finds the same node
   * (shell4.py:100-112).
   */
  lemma {:induction false} ResolveOwnPath(es: seq<Element>, decode: Decoder, segs: seq<string>, n: Node)
    requires PlainNames(segs)
    requires Descend(Folder("", "/", Build(es, "/", decode)), segs) == Found(n)
    ensures n.path == Paths.Render(segs)
    ensures Resolve(Folder("", "/", Build(es, "/", decode)), n.path) == Found(n)
  {
    var root := Folder("", "/", Build(es, "/", decode));
    BuildWellPlaced(es, "/", decode);
    assert WellPlaced(root);
    DescendPath(root, segs, n);
    if segs != [] {
      PlainNamesNamed(segs);
      Paths.JoinNotEmpty(segs);
      Paths.NonEmptyOfRender(segs);
    }
  }

  class FileSystem {
    var root: FolderNode
    var name: string
    var rawData: string
    const decode: Decoder
    const hash: string -> HexDigest

    /** `VirtualFileSystem()`; the decoder and the digest are the library calls the loader makes. */
    constructor (decode: Decoder, hash: string -> HexDigest)
      ensures root == EmptyRoot && name == "" && rawData == ""
      ensures this.decode == decode && this.hash == hash
    {
      root := EmptyRoot;
      name := "";
      rawData := "";
      this.decode := decode;
      this.hash := hash;
    }

    /**
     * `load_from_xml` without the file and parser: `source` is what reading
     * the file gave (None: it raised), `parse` is `ET.fromstring` (None: it raised).
     */
    method LoadFromXml(source: Option<string>, parse: string -> Option<Element>) returns (ok: bool)
      modifies this
      ensures source.None? ==> !ok && rawData == old(rawData)
      ensures source.Some? ==> rawData == source.value
      ensures ok <==> source.Some? && parse(source.value).Some?
      ensures !ok ==> name == old(name) && root == old(root)
      ensures ok ==> var doc := parse(source.value).value;
        name == (if doc.name.Some? then doc.name.value else "unnamed_vfs") &&
        root == Folder("", "/", Build(doc.children, "/", decode))
    {
      if source.None? {
        return false;
      }
      rawData := source.value;
      var doc := parse(rawData);
      if doc.None? {
        return false;
      }
      name := if doc.value.name.Some? then doc.value.name.value else "unnamed_vfs";
      root := EmptyRoot;
      var children := ParseFolder(doc.value, "/");
      root := Folder("", "/", children);
      ok := true;
    }

    /** `_parse_folder(element, folder, path)`: the children map the folder at `path` ends up with. */
    method ParseFolder(element: Element, path: string) returns (children: map<string, Node>)
      ensures children == Build(element.children, path, decode)
      decreases element
    {
      children := map[];
      for i := 0 to |element.children|
        invariant children == Build(element.children[..i], path, decode)
      {
        var child := element.children[i];
        assert element.children[..i + 1][..i] == element.children[..i];
        if child.tag == "folder" {
          var folderName := NameOf(child);
          var folderPath := JoinPath(path, folderName);
          var grandChildren := ParseFolder(child, folderPath);
          children := children[folderName := Folder(folderName, folderPath, grandChildren)];
        } else if child.tag == "file" {
          var fileName := NameOf(child);
          var filePath := JoinPath(path, fileName);
          var encoding := EncodingOf(child);
          var content := RawText(child);
          if encoding == "base64" && content != "" {
            var decoded := decode(content);
            if decoded.Some? {
              content := decoded.value;
            }
          }
          children := children[fileName := File(fileName, filePath, content, encoding)];
        }
      }
      assert element.children[..|element.children|] == element.children;
    }

    /** `get_node(path)`, with the AttributeError of a path through a file as ThroughFile. */
    method GetNode(path: string) returns (w: Walk)
      ensures w == Resolve(root, path)
    {
      if path == "/" {
        return Found(root);
      }
      var parts := Paths.NonEmpty(Split(path, '/'));
      var current: Node := root;
      for i := 0 to |parts|
        invariant Descend(current, parts[i..]) == Resolve(root, path)
      {
        if current.File? {
          return ThroughFile;
        }
        if parts[i] in current.children {
          current := current.children[parts[i]];
        } else {
          return Missing;
        }
      }
      w := Found(current);
    }

    /** `list_directory(path)`: the names in the folder at `path`, None for a file or a missing path. */
    function ListDirectory(path: string): (r: Result<Option<set<string>>, Fault>)
      reads this
      ensures r.Err? <==> Resolve(root, path).ThroughFile?
      ensures r.Ok? && r.value.Some? <==> Resolve(root, path).Found? && Resolve(root, path).node.Folder?
      ensures r.Ok? && r.value.Some? ==> r.value.value == Resolve(root, path).node.children.Keys
    {
      match Resolve(root, path)
      case ThroughFile => Err(AttributeError)
      case Missing => Ok(None)
      case Found(node) => if node.Folder? then Ok(Some(node.children.Keys)) else Ok(None)
    }

    /** `is_directory(path)`. */
    function IsDirectory(path: string): (r: Result<bool, Fault>)
      reads this
      ensures r.Err? <==> Resolve(root, path).ThroughFile?
      ensures r == Ok(true) <==> Resolve(root, path).Found? && Resolve(root, path).node.Folder?
    {
      match Resolve(root, path)
      case ThroughFile => Err(AttributeError)
      case Missing => Ok(false)
      case Found(node) => Ok(node.Folder?)
    }

    /** `read_file(path)`: the content of the file at `path`, None for a folder or a missing path. */
    function ReadFile(path: string): (r: Result<Option<string>, Fault>)
      reads this
      ensures r.Err? <==> Resolve(root, path).ThroughFile?
      ensures r.Ok? && r.value.Some? <==> Resolve(root, path).Found? && Resolve(root, path).node.File?
      ensures r.Ok? && r.value.Some? ==> r.value.value == Resolve(root, path).node.content
    {
      match Resolve(root, path)
      case ThroughFile => Err(AttributeError)
      case Missing => Ok(None)
      case Found(node) => if node.File? then Ok(Some(node.content)) else Ok(None)
    }

    /** `calculate_sha256()`: the digest of the raw document, "N/A" exactly when there is none. */
    function Sha256(): (r: string)
      reads this
      ensures r == "N/A" <==> rawData == ""
      ensures rawData != "" ==> r == hash(rawData)
    {
      if rawData == "" then "N/A" else hash(rawData)
    }

    /** `get_info()`: loaded exactly when a raw document was read. */
    function GetInfo(): (r: Info)
      reads this
      ensures r.name == name
      ensures r.loaded <==> rawData != ""
      ensures r.loaded <==> r.sha256 != "N/A"
      ensures r.sha256 == Sha256()
      ensures r.loaded ==> r.sha256 == hash(rawData)
    {
      Info(name, Sha256(), rawData != "")
    }
  }
}

=== FILE: wrappers.dfy ===
/** Option and Result, the two failure-carrying values used across the model. */
module Wrappers {

  /** A value that may be absent: Python's `None` or an object. */
  datatype Option<+T> = None | Some(value: T)

  /** A value or the exception that replaced it. */
  datatype Result<+T, +E> = Ok(value: T) | Err(error: E)
}
